=== FILE: README.md ===
# Sales-management inventory core, modelled in Dafny

This project models the rule-bearing core of a small Django sales and
inventory application. That core is:

- the item and delivery form validators;
- the dashboard counts and the multi-term item search;
- the AJAX item lookup and the permission checks of the product and delivery screens;
- the string renderings of customers, profiles, categories, items and deliveries;
- the `on_delete` behaviour of the inventory foreign keys;
- the post-save hook that gives every user exactly one profile.

The database is an immutable value `Database.Db`. It has one sequence of
rows per table, in primary-key order. Every operation is a pure function
over those values. The deletes and the profile hook are state transitions.
Their contracts say what changes and that nothing else does. Lemmas show
that each of them keeps referential integrity (`Database.Valid`).

Modules:

- `Wrappers`: `Option` and `Result`, used for Python's `None` and for raised exceptions.
- `Seqs`: filtering, counting, slicing and sub-sequences over tables.
- `Text`: the parts of Python's `str` the code relies on.
  This covers the `isspace` character set, `strip()` and `split()`.
  It also covers case-folded containment (`icontains`) and `str(int)` with its inverse.
- `Accounts`: `salesmgt/accounts/models.py`.
- `StoreModels`: `salesmgt/store/models.py`, including the item listing order (`ordering = ['name']`).
- `Database`: the tables, their integrity and the foreign-key delete semantics.
- `ProfileSignals`: `salesmgt/accounts/signals.py`.
- `StoreForms`: `salesmgt/store/forms.py`.
- `StoreViews`: `salesmgt/store/views.py`.

Where the code and its comments disagree, the model follows the code.

- `ProductCreateView.test_func` says in its docstring that it checks "superuser OR staff".
  The code checks that the role is ADMIN or EXECUTIVE, and `StoreViews.CanCreateProduct` models that.
- In `DeliveryForm.clean`, the code cannot report a missing first name and a missing phone together.
  `is_new_customer` already requires one of the two to be present.
  `StoreForms.CleanDelivery` proves that at most one field error is attached.
- The dashboard reads `total_items` with the default `0.00`.
  That default is never used: over an empty table the `Sum` aggregate key is present, with a null value.
  The model returns `None` in that case.
- A search query made only of whitespace is truthy, but it splits into no terms.
  `reduce` over no terms raises `TypeError`.
  `StoreViews.SearchItems` returns an error result in that case.

## Model

| member | source | states |
|---|---|---|
| `Accounts.StatusFromCode` | salesmgt/accounts/models.py:13-17 | Reading a stored status code gives back the status whose code it is, and no other; unknown codes are rejected |
| `Accounts.StatusCodeInjective` | salesmgt/accounts/models.py:13-17 | The status codes INA, A and OL are pairwise distinct |
| `Accounts.RoleFromCode` | salesmgt/accounts/models.py:20-24 | Reading a stored role code gives back the role whose code it is, and no other; unknown codes are rejected |
| `Accounts.RoleCodeInjective` | salesmgt/accounts/models.py:20-24 | The role codes OP, EX and AD are pairwise distinct |
| `Accounts.DefaultProfile` | salesmgt/accounts/models.py:50-76 | A newly created profile has status INACTIVE (code "INA"), no role, empty names and no telephone or email |
| `Accounts.ProfileStr` | salesmgt/accounts/models.py:92-96 | A profile renders as its owner's username followed by " Profile" |
| `Accounts.NewCustomer` | salesmgt/accounts/models.py:145-150 | A customer created without loyalty points starts with 0, and the unset nullable fields are null |
| `Accounts.FullName` | salesmgt/accounts/models.py:164-168 | The full name is first + " " + last (null last as empty) with only an all-whitespace prefix and an all-whitespace suffix cut off, and it neither starts nor ends with whitespace |
| `Accounts.CustomerStr` | salesmgt/accounts/models.py:158-162 | `__str__` of a customer always equals `get_full_name` |
| `Accounts.FullNameWithoutLastName` | salesmgt/accounts/models.py:164-168 | With a null or empty last name the full name is the stripped first name |
| `Accounts.FullNameOfTrimmedParts` | salesmgt/accounts/models.py:164-168 | With non-empty trimmed first and last names the full name is exactly "first last" |
| `Accounts.ToSelect2` | salesmgt/accounts/models.py:170-178 | The select2 payload's label is the full name and its value is the customer id |
| `Text.Strip` | salesmgt/accounts/models.py:168 | `strip()` returns a slice of the input that is preceded and followed only by whitespace and neither starts nor ends with whitespace; it is empty exactly when the input is all whitespace |
| `Text.StripUnique` | salesmgt/accounts/models.py:168 | Any slice of the input that has only whitespace before and after it and neither starts nor ends with whitespace is the result of `strip()` |
| `Text.StripIdempotent` | salesmgt/accounts/models.py:168 | Stripping twice is the same as stripping once |
| `Text.Split` | salesmgt/store/views.py:132 | `split()` yields the maximal runs of non-whitespace of the query, in order: each word follows the whitespace after the previous word, ends at whitespace or at the end, and only whitespace follows the last; no words exactly when the query is all whitespace |
| `Text.SplitUnique` | salesmgt/store/views.py:132 | Any list of words that fits the query as its maximal runs, in order, is the result of `split()` |
| `Text.SplitSingleWord` | salesmgt/store/views.py:132 | A non-empty query without whitespace splits into itself alone |
| `Text.IContains` | salesmgt/store/views.py:135 | `icontains` holds exactly when the lower-cased term occurs in the lower-cased name; the empty term matches every name |
| `Text.ParseIntToString` | salesmgt/store/models.py:55-58 | The decimal rendering of an integer reads back to the same integer |
| `StoreModels.CategoryStr` | salesmgt/store/models.py:28-32 | A category renders as "Category: " followed by its name |
| `StoreModels.NewItem` | salesmgt/store/models.py:42-49 | An item created without stock, price or vendor has quantity 0, price 0 and no vendor |
| `StoreModels.ItemStr` | salesmgt/store/models.py:51-58 | An item renders as its name, then " - Category: ", then the category's rendering, then ", Quantity: ", then its stock in decimal, each part at its own offset |
| `StoreModels.ItemStrDistinguishesQuantity` | salesmgt/store/models.py:51-58 | Two renderings of one item that differ only in stock are different strings |
| `StoreModels.ToJson` | salesmgt/store/models.py:66-73 | The JSON of an item has its id, text = name, category = category name, and always quantity 1 and total_product 0 |
| `StoreModels.ToJsonIgnoresStock` | salesmgt/store/models.py:66-73 | The JSON of an item is the same whatever its stock level |
| `StoreModels.NewDelivery` | salesmgt/store/models.py:84-87 | A delivery created without a delivered flag is not delivered |
| `StoreModels.CustomerName` | salesmgt/store/models.py:93 | A delivery shows its customer's full name, or "Unknown Customer" when it has none |
| `StoreModels.CustomerLocation` | salesmgt/store/models.py:94 | A delivery shows the customer's address only when there is a customer with a non-empty address, and "Unknown Location" otherwise |
| `StoreModels.DeliveryStr` | salesmgt/store/models.py:89-99 | A delivery renders as "Delivery of <item> to ", then the customer's name, " at ", the customer's location and " on ", then the formatted date, each part found at its own position |
| `StoreModels.NameLeTotal` | salesmgt/store/models.py:75-77 | Any two item names are comparable in the listing order |
| `StoreModels.NameLeTransitive` | salesmgt/store/models.py:75-77 | The listing order on names is transitive |
| `StoreModels.NameLeAntisymmetric` | salesmgt/store/models.py:75-77 | Two names that sort no later than each other are equal |
| `StoreModels.SortedByNamePairwise` | salesmgt/store/models.py:75-77 | In a list sorted by name, every earlier item sorts no later than every later one |
| `StoreModels.InsertByName` | salesmgt/store/models.py:75-77 | Inserting an item into a name-sorted list keeps it sorted and adds exactly that item |
| `StoreModels.ItemsByName` | salesmgt/store/models.py:75-77 | The item listing is sorted by name and holds exactly the stored items, each as often as stored |
| `Database.DeleteCategory` | salesmgt/store/models.py:45 | Deleting a category removes exactly it and its items, keeping the rest in order. A delivery's item reference becomes null exactly when it points at one of those items and is otherwise unchanged. The other tables and delivery fields are unchanged |
| `Database.DeleteCategoryKeepsValid` | salesmgt/store/models.py:45 | After a category delete, every item still has its category and no delivery points at a removed item |
| `Database.DeleteVendor` | salesmgt/store/models.py:49 | Deleting a vendor removes exactly it, keeping the rest in order. An item's vendor reference becomes null exactly when it points at that vendor and is otherwise unchanged. Nothing else changes |
| `Database.DeleteVendorKeepsValid` | salesmgt/store/models.py:49 | After a vendor delete, no item points at a missing vendor |
| `Database.DeleteItem` | salesmgt/store/models.py:84 | Deleting an item removes exactly it, keeping the rest in order. A delivery's item reference becomes null exactly when it points at that item and is otherwise unchanged. Nothing else changes |
| `Database.DeleteItemKeepsValid` | salesmgt/store/models.py:84 | After an item delete, no delivery points at a missing item |
| `Database.DeleteCustomer` | salesmgt/store/models.py:85 | Deleting a customer removes exactly it and its deliveries, keeps every other customer and delivery in its original order, and changes nothing else |
| `Database.DeleteCustomerKeepsValid` | salesmgt/store/models.py:85 | After a customer delete, no delivery points at a missing customer |
| `ProfileSignals.ProfileCountOneToOne` | salesmgt/accounts/models.py:31-35 | Under the one-to-one constraint a user has one profile or none |
| `ProfileSignals.CreateProfile` | salesmgt/accounts/models.py:31-35 | Creating a profile fails exactly when the user already has one or does not exist; otherwise exactly one default profile is added and nothing else changes |
| `ProfileSignals.OnUserSaved` | salesmgt/accounts/signals.py:23-33 | The hook fails only when a user is created that already has a profile; an existing profile is kept unchanged; afterwards the user has a profile; a user who had none gets exactly one default profile appended after the existing ones, in both the create and the recreate branch; other users' profiles and all other tables are unchanged |
| `ProfileSignals.OnUserSavedKeepsValid` | salesmgt/accounts/signals.py:10-33 | After the hook the database is consistent and the user has exactly one profile |
| `ProfileSignals.OnUserCreatedAddsDefaultProfile` | salesmgt/accounts/signals.py:23-24 | Creating a user adds one profile in its default state |
| `ProfileSignals.SecondProfileRejected` | salesmgt/accounts/models.py:31-35 | Once the hook has created a profile, creating a second one for the same user fails |
| `ProfileSignals.OnUserSavedRecreatesDefaultProfile` | salesmgt/accounts/signals.py:31-33 | An updated user whose profile is missing gets a recreated profile in its default state (INACTIVE, no role), appended after the others |
| `ProfileSignals.OnUserSavedIdempotent` | salesmgt/accounts/signals.py:27-30 | After the hook, further non-create saves leave the database as it is |
| `StoreForms.CleanQuantity` | salesmgt/store/forms.py:49-59 | A quantity is rejected with "The quantity must be 1 or greater." exactly when it is present and below 1; otherwise it is returned unchanged |
| `StoreForms.CleanPrice` | salesmgt/store/forms.py:61-68 | A price is rejected with "The price cannot be negative." exactly when it is present and negative; 0 is accepted; an accepted price is returned unchanged |
| `StoreForms.CleanDelivery` | salesmgt/store/forms.py:139-168 | A form-wide error is raised exactly when both or neither of "existing" and "new" customer are given, with the matching message. Otherwise a missing first name or phone of a new customer gets its own field error. At most one field error is ever attached |
| `StoreForms.CleanDeliveryAcceptsExactly` | salesmgt/store/forms.py:139-168 | The form is accepted exactly when an existing customer alone is given, or no existing customer and both a first name and a phone |
| `StoreForms.LocationIsIgnored` | salesmgt/store/forms.py:142-146 | The location does not affect validation; a location alone counts as no customer |
| `StoreViews.CategoryItemCount` | salesmgt/store/views.py:64-66 | A category's count is at most the number of items, and 0 exactly when no item belongs to it |
| `StoreViews.DashboardData` | salesmgt/store/views.py:51-68 | `total_items` is null exactly for an empty item table, and otherwise the stock total. `items_count` and `profiles_count` are the table sizes. `categories` and `category_counts` are index-aligned, with one entry per category |
| `StoreViews.TotalQuantity` | salesmgt/store/views.py:55-59 | The stock total of no items is 0; with no negative stock it is not negative, and it is 0 only when every item has none |
| `StoreViews.TotalQuantityAppend` | salesmgt/store/views.py:55-59 | The stock total over two lists joined is the sum of their totals |
| `StoreViews.DashboardCountsAddUp` | salesmgt/store/views.py:64-68 | On a consistent database the per-category counts add up to the number of items |
| `StoreViews.TotalAtLeastCount` | salesmgt/store/views.py:55-60 | When every item holds at least one unit, the stock total is at least the item count |
| `StoreViews.SearchItems` | salesmgt/store/views.py:127-138 | The search fails exactly for a non-empty all-whitespace query. No or an empty query keeps every item. Otherwise it keeps exactly the items whose name contains every term, ignoring case, in their original order |
| `StoreViews.ItemSearch` | salesmgt/store/views.py:127-138 | The product-list search fails exactly for a non-empty all-whitespace query. No or an empty query lists every stored item, each as often as stored. Otherwise it lists exactly the stored items whose name contains every term, ignoring case. Results are a sub-list of the name-ordered listing |
| `StoreViews.SearchOneWord` | salesmgt/store/views.py:130-136 | A one-word query keeps exactly the items whose name contains that word, ignoring case |
| `StoreViews.IsAjax` | salesmgt/store/views.py:446-447 | A request is AJAX exactly when its `X-Requested-With` header is present and equals `XMLHttpRequest`; a missing header does not match |
| `StoreViews.IsAjaxOnlyThatHeader` | salesmgt/store/views.py:446-447 | No other header changes the answer, and the value is compared exactly, so `xmlhttprequest` does not match |
| `StoreViews.ItemsToJson` | salesmgt/store/views.py:459-461 | Each listed item becomes `to_json()` of it with its own category, in order; the lookup fails exactly when an item's category is missing |
| `StoreViews.LookupMatches` | salesmgt/store/views.py:459 | The lookup candidates are exactly the stored items whose name contains the term, as a sub-list of the name-ordered listing |
| `StoreViews.LookupPage` | salesmgt/store/views.py:459-460 | The page is a prefix of the matches of at most 10 items, in name order, each a stored item whose name contains the term; any match left out means the page is full and the match sorts no earlier than its last item |
| `StoreViews.TakeSortedByName` | salesmgt/store/views.py:460 | The first 10 of a name-sorted list are sorted, come from the list, are all of it when fewer, and anything left out sorts no earlier than the last of them |
| `StoreViews.LookupReply` | salesmgt/store/views.py:459-461 | Entry k of the JSON reply is `to_json()` of page item k with its own category; the reply cannot be built exactly when a page item's category is missing |
| `StoreViews.LookupReplyMatches` | salesmgt/store/views.py:459-461 | Every JSON entry is `to_json()` of a stored item whose name contains the term, with that item's category |
| `StoreViews.LookupReplyOrdered` | salesmgt/store/views.py:459-461 | The JSON reply has at most 10 entries, each naming a stored matching item, in name order |
| `StoreViews.LookupReplyComplete` | salesmgt/store/views.py:459-461 | Every match is in the JSON reply, unless the reply is full and the match sorts no earlier than its last entry |
| `StoreViews.ItemsLookup` | salesmgt/store/views.py:446-466 | A non-POST request is refused and an anonymous one is sent to log in. A request without the `X-Requested-With: XMLHttpRequest` header gets a 400 error. Otherwise the reply is the lookup's JSON for the POSTed term, or a 500 error exactly when that JSON cannot be built |
| `StoreViews.ItemsLookupReply` | salesmgt/store/views.py:453-463 | Whenever the lookup replies with items, it lists `to_json()` of stored items whose names contain the term, each with its own category, at most 10, in name order; every match not listed sorts no earlier than the last entry, which only happens when 10 are listed |
| `StoreViews.LookupSucceeds` | salesmgt/store/views.py:453-465 | On a consistent database an allowed lookup never takes the 500 branch |
| `StoreViews.CanCreateProduct` | salesmgt/store/views.py:176-180 | Product creation is allowed exactly for the ADMIN and EXECUTIVE roles |
| `StoreViews.CanDeleteProduct` | salesmgt/store/views.py:240-241 | Product deletion is allowed exactly for the ADMIN and EXECUTIVE roles |
| `StoreViews.CanUpdateProduct` | salesmgt/store/views.py:207-209 | Product update is allowed exactly for superusers |
| `StoreViews.CanDeleteDelivery` | salesmgt/store/views.py:375-379 | Delivery deletion is allowed exactly for superusers |

## Left out

- Purchases, sales and sale details are not part of this model: their stock increments, totals, chart series and `normalize_data`.
  Their defining source is not among the modelled files.
- Slug generation is left out. `AutoSlugField` is an external library.
  The `slug` fields of categories, items, vendors and profiles are not modelled.
- Phone-number parsing and profile-image processing are left out. Both are external libraries.
  Phone numbers are plain strings here.
- Item expiry dates, descriptions beyond their presence in JSON, and `get_absolute_url` are not modelled: no rule depends on them.
- HTTP plumbing is left out: template rendering, JSON serialisation, CSRF exemption, login redirect targets, URL routing, admin configuration, table export and list pagination.
- The permission-denied page (`salesmgt/store/mixins.py`) is rendering plus constants.
- The health check does database and cache I/O.
- `DeliverySearchListView` is left out. It filters on `customer_name`, which is not a Delivery field, so it fails at query time.
- `DeliveryCreateView.form_valid`, `CategoryDetailView` and `CategoryForm` are left out: they are framework glue.
- The `print` calls of the profile hook are left out because they are console output only.
- `user.get_role()` is not defined in the modelled source. `StoreViews.Actor` takes the role it returns as a field.
- The lookup's generic `except Exception` branch is modelled only for the failure that can occur in its body: an item whose category row is missing.
- Text.IContains: folds case for ASCII letters only, as SQLite's `LIKE` does. Backends that fold all of Unicode match more names.
- StoreModels.NameLe: orders names by Unicode code point, as SQLite's default collation does. Other database collations may order names differently.
- The `%Y-%m-%d` rendering of a delivery date is a parameter of `StoreModels.DeliveryStr`, because date formatting is the standard library's.
- StoreModels.ItemsByName: puts items with equal names in primary-key order. The database leaves ties unordered.
- `Database.Valid` tracks distinct ids only for categories, where the dashboard counts depend on them. Primary-key uniqueness of the other tables is the database's and is not modelled.
- `ProfileSignals.CreateProfile` reports a missing user as an immediate failure. Django creates its foreign keys deferrable, so the database reports the violation at commit.
- The display labels of the status and role choices ("Inactive", "On leave", "Admin", ...) are left out. They are translatable text that no modelled rule reads.
- StoreViews.LookupReply: two entries of the reply can share an id only when two stored items do. Distinct item ids are the database's primary key and are not part of `Database.Valid`.
- Item prices are floating point in the source. They are modelled as exact reals, since only their sign is ever inspected.

=== FILE: accounts.dfy ===
/** The account-side entities of the sales-management system
    (salesmgt/accounts/models.py): profile status and role choices,
    users and their profiles, vendors and customers, and the customer's
    rendered name. */
module Accounts {
  import opened Wrappers
  import opened Text

  /** A profile's account status (`ProfileStatus` text choices). */
  datatype ProfileStatus = Inactive | Active | OnLeave

  /** The code stored in the database for a status. */
  function StatusCode(s: ProfileStatus): string {
    match s
    case Inactive => "INA"
    case Active => "A"
    case OnLeave => "OL"
  }

  /** Reads a stored status code back; codes outside the choices are
      rejected. */
  function StatusFromCode(c: string): (r: Option<ProfileStatus>)
    ensures r.Some? ==> StatusCode(r.value) == c
    ensures forall s :: StatusCode(s) == c ==> r == Some(s)
  {
    if c == "INA" then Some(Inactive)
    else if c == "A" then Some(Active)
    else if c == "OL" then Some(OnLeave)
    else None
  }

  /** The three status codes are pairwise distinct, so a stored code
      identifies exactly one status. */
  lemma StatusCodeInjective(s: ProfileStatus, t: ProfileStatus)
    requires StatusCode(s) == StatusCode(t)
    ensures s == t
  {
    assert StatusFromCode(StatusCode(s)) == Some(t);
  }

  /** A user's role within the organisation (`UserRole` text choices). */
  datatype UserRole = Operative | Executive | Admin

  /** The code stored in the database for a role. */
  function RoleCode(r: UserRole): string {
    match r
    case Operative => "OP"
    case Executive => "EX"
    case Admin => "AD"
  }

  /** Reads a stored role code back; codes outside the choices are
      rejected. */
  function RoleFromCode(c: string): (r: Option<UserRole>)
    ensures r.Some? ==> RoleCode(r.value) == c
    ensures forall role :: RoleCode(role) == c ==> r == Some(role)
  {
    if c == "OP" then Some(Operative)
    else if c == "EX" then Some(Executive)
    else if c == "AD" then Some(Admin)
    else None
  }

  /** The three role codes are pairwise distinct. */
  lemma RoleCodeInjective(a: UserRole, b: UserRole)
    requires RoleCode(a) == RoleCode(b)
    ensures a == b
  {
    assert RoleFromCode(RoleCode(a)) == Some(b);
  }

  /** The part of the framework's user account the system reads. */
  datatype User = User(id: nat, username: string, isSuperuser: bool)

  /** A user's profile; `user` is a one-to-one reference to a `User`. */
  datatype Profile = Profile(
    user: nat,
    telephone: Option<string>,
    email: Option<string>,
    firstName: string,
    lastName: string,
    status: ProfileStatus,
    role: Option<UserRole>)

  /** The profile `Profile.objects.create(user=...)` stores: every field
      at its default. */
  function DefaultProfile(userId: nat): (p: Profile)
    ensures p.user == userId
    ensures p.status == Inactive && StatusCode(p.status) == "INA"
    ensures p.role == None
    ensures p.firstName == "" && p.lastName == ""
    ensures p.telephone == None && p.email == None
  {
    Profile(userId, None, None, "", "", Inactive, None)
  }

  /** `Profile.__str__`: the owner's username followed by " Profile". */
  function ProfileStr(p: Profile, owner: User): (r: string)
    requires owner.id == p.user
    ensures |r| == |owner.username| + 8
    ensures r[..|owner.username|] == owner.username
    ensures r[|owner.username|..] == " Profile"
  {
    owner.username + " Profile"
  }

  /** A supplier of items. */
  datatype Vendor = Vendor(id: nat, name: string, phoneNumber: Option<int>, address: Option<string>)

  /** A customer; `lastName`, `address`, `email` and `phone` are nullable
      columns. */
  datatype Customer = Customer(
    id: nat,
    firstName: string,
    lastName: Option<string>,
    address: Option<string>,
    email: Option<string>,
    phone: Option<string>,
    loyaltyPoints: int)

  /** A customer created with only the required field given: the nullable
      columns are empty and the loyalty counter starts at 0. */
  function NewCustomer(id: nat, firstName: string, address: Option<string>, phone: Option<string>): (c: Customer)
    ensures c.id == id && c.firstName == firstName
    ensures c.address == address && c.phone == phone
    ensures c.lastName == None && c.email == None
    ensures c.loyaltyPoints == 0
  {
    Customer(id, firstName, None, address, None, phone, 0)
  }

  /** `Customer.get_full_name`: the first name, a space and the last name
      (empty when null), with surrounding whitespace stripped. */
  function FullName(c: Customer): (r: string)
    ensures Trimmed(r)
    ensures StrippedFrom(r, c.firstName + " " + c.lastName.GetOr(""))
    ensures |r| <= |c.firstName| + 1 + |c.lastName.GetOr("")|
  {
    Strip(c.firstName + " " + c.lastName.GetOr(""))
  }

  /** `Customer.__str__`, which repeats the formula of `get_full_name`: the
      two always agree. */
  function CustomerStr(c: Customer): (r: string)
    ensures r == FullName(c)
  {
    Strip(c.firstName + " " + (if c.lastName.Some? then c.lastName.value else ""))
  }

  /** Without a last name (null or empty) the full name is the stripped
      first name. */
  lemma FullNameWithoutLastName(c: Customer)
    requires c.lastName == None || c.lastName == Some("")
    ensures FullName(c) == Strip(c.firstName)
  {
    assert c.firstName + " " + c.lastName.GetOr("") == c.firstName + " ";
    StripAppendSpace(c.firstName, " ");
  }

  /** With trimmed, non-empty first and last names the full name is
      exactly "first last". */
  lemma FullNameOfTrimmedParts(c: Customer)
    requires |c.firstName| > 0 && Trimmed(c.firstName)
    requires c.lastName.Some? && |c.lastName.value| > 0 && Trimmed(c.lastName.value)
    ensures FullName(c) == c.firstName + " " + c.lastName.value
  {
    var s := c.firstName + " " + c.lastName.value;
    assert s[0] == c.firstName[0];
    assert s[|s| - 1] == c.lastName.value[|c.lastName.value| - 1];
    StripTrimmed(s);
  }

  /** The payload `to_select2` returns for a select widget: `labelText` is
      the dictionary's "label" entry, `value` its "value" entry. */
  datatype Select2Option = Select2Option(labelText: string, value: nat)

  /** `Customer.to_select2`: the label is the full name and the value is
      the customer's id. */
  function ToSelect2(c: Customer): (r: Select2Option)
    ensures r.labelText == FullName(c) && r.value == c.id
  {
    Select2Option(FullName(c), c.id)
  }
}

=== FILE: database.dfy ===
/** The database the system runs on, as immutable tables in primary-key
    order, with the referential integrity its foreign keys enforce and
    the `on_delete` behaviour of those keys
    (salesmgt/store/models.py, salesmgt/accounts/models.py). */
module Database {
  import opened Wrappers
  import opened Seqs
  import opened Accounts
  import opened StoreModels

  /** All tables the modelled core reads or writes. */
  datatype Db = Db(
    users: seq<User>,
    profiles: seq<Profile>,
    vendors: seq<Vendor>,
    customers: seq<Customer>,
    categories: seq<Category>,
    items: seq<Item>,
    deliveries: seq<Delivery>)

  function UserIds(us: seq<User>): set<nat> { set u | u in us :: u.id }
  function VendorIds(vs: seq<Vendor>): set<nat> { set v | v in vs :: v.id }
  function CustomerIds(cs: seq<Customer>): set<nat> { set c | c in cs :: c.id }
  function CategoryIds(cs: seq<Category>): set<nat> { set c | c in cs :: c.id }
  function ItemIds(its: seq<Item>): set<nat> { set it | it in its :: it.id }

  /** No two categories share an id (the primary key). */
  predicate DistinctCategoryIds(cs: seq<Category>) {
    forall i, j :: 0 <= i < j < |cs| ==> cs[i].id != cs[j].id
  }

  /** The one-to-one constraint on `Profile.user`: no user has two
      profiles. */
  predicate ProfilesOneToOne(ps: seq<Profile>) {
    forall i, j :: 0 <= i < j < |ps| ==> ps[i].user != ps[j].user
  }

  /** Every item's category exists and its vendor, when set, exists. */
  predicate ItemRefsValid(its: seq<Item>, cats: seq<Category>, vendors: seq<Vendor>) {
    forall it :: it in its ==>
      it.category in CategoryIds(cats) && (it.vendor.Some? ==> it.vendor.value in VendorIds(vendors))
  }

  /** Every delivery's item and customer, when set, exist. */
  predicate DeliveryRefsValid(ds: seq<Delivery>, its: seq<Item>, customers: seq<Customer>) {
    forall k :: 0 <= k < |ds| ==>
      (ds[k].item.Some? ==> ds[k].item.value in ItemIds(its))
      && (ds[k].customer.Some? ==> ds[k].customer.value in CustomerIds(customers))
  }

  /** Every profile belongs to an existing user. */
  predicate ProfileRefsValid(ps: seq<Profile>, us: seq<User>) {
    forall p :: p in ps ==> p.user in UserIds(us)
  }

  /** The integrity the modelled operations rely on and keep: category
      ids are distinct, no user has two profiles, and every foreign key
      points at an existing row. Distinct primary keys in the other
      tables are not part of this predicate. */
  predicate Valid(db: Db) {
    && DistinctCategoryIds(db.categories)
    && ProfilesOneToOne(db.profiles)
    && ProfileRefsValid(db.profiles, db.users)
    && ItemRefsValid(db.items, db.categories, db.vendors)
    && DeliveryRefsValid(db.deliveries, db.items, db.customers)
  }

  /** Keeping a subset of the categories keeps their ids distinct. */
  lemma {:induction false} FilterKeepsDistinctCategoryIds(cs: seq<Category>, keep: Category -> bool)
    requires DistinctCategoryIds(cs)
    ensures DistinctCategoryIds(Filter(cs, keep))
  {
    if cs != [] {
      var rest := Filter(cs[1..], keep);
      FilterKeepsDistinctCategoryIds(cs[1..], keep);
      if keep(cs[0]) {
        var r := [cs[0]] + rest;
        forall i, j | 0 <= i < j < |r|
          ensures r[i].id != r[j].id
        {
          if i == 0 {
            assert r[j] in cs[1..];
            var k :| 0 <= k < |cs[1..]| && cs[1..][k] == r[j];
            assert cs[k + 1] == r[j];
          } else {
            assert r[i] == rest[i - 1] && r[j] == rest[j - 1];
          }
        }
      }
    }
  }

  /** Sets to null the item reference of every delivery that points at
      one of `gone` (`on_delete=SET_NULL` on `Delivery.item`). */
  function NullItemRefs(ds: seq<Delivery>, gone: set<nat>): (r: seq<Delivery>)
    ensures |r| == |ds|
    ensures forall k :: 0 <= k < |ds| ==> r[k].(item := ds[k].item) == ds[k]
    ensures forall k :: 0 <= k < |ds| ==> r[k].item.Some? ==> r[k].item == ds[k].item && r[k].item.value !in gone
    ensures forall k :: 0 <= k < |ds| ==> ds[k].item.Some? && ds[k].item.value !in gone ==> r[k].item == ds[k].item
    ensures forall k :: 0 <= k < |ds| ==> ds[k].item.Some? && ds[k].item.value in gone ==> r[k].item == None
  {
    seq(|ds|, k requires 0 <= k < |ds| =>
      if ds[k].item.Some? && ds[k].item.value in gone then ds[k].(item := None) else ds[k])
  }

  /** The ids of the items in category `cid`. */
  function ItemIdsInCategory(its: seq<Item>, cid: nat): set<nat> {
    set it | it in its && it.category == cid :: it.id
  }

  /** Deleting a category: its items are deleted with it
      (`on_delete=CASCADE` on `Item.category`), and deliveries of those
      items lose their item reference (`on_delete=SET_NULL` on
      `Delivery.item`). Users, profiles, vendors and customers are
      untouched. */
  function DeleteCategory(db: Db, cid: nat): (r: Db)
    ensures r.(categories := db.categories, items := db.items, deliveries := db.deliveries) == db
    ensures forall c :: c in r.categories <==> c in db.categories && c.id != cid
    ensures forall it :: it in r.items <==> it in db.items && it.category != cid
    ensures |r.deliveries| == |db.deliveries|
    ensures forall k :: 0 <= k < |db.deliveries| ==> r.deliveries[k].(item := db.deliveries[k].item) == db.deliveries[k]
    ensures forall k :: 0 <= k < |db.deliveries| && db.deliveries[k].item.Some? ==>
      (r.deliveries[k].item == None <==> db.deliveries[k].item.value in ItemIdsInCategory(db.items, cid))
    ensures forall k :: 0 <= k < |db.deliveries| ==>
      r.deliveries[k].item ==
        (if db.deliveries[k].item.Some? && db.deliveries[k].item.value in ItemIdsInCategory(db.items, cid)
         then None else db.deliveries[k].item)
    ensures IsSubsequence(r.categories, db.categories)
    ensures IsSubsequence(r.items, db.items)
  {
    db.(categories := Filter(db.categories, (c: Category) => c.id != cid),
        items := Filter(db.items, (it: Item) => it.category != cid),
        deliveries := NullItemRefs(db.deliveries, ItemIdsInCategory(db.items, cid)))
  }

  /** Deleting a category keeps the database consistent: no item is left
      without its category and no delivery points at a deleted item. */
  lemma DeleteCategoryKeepsValid(db: Db, cid: nat)
    requires Valid(db)
    ensures Valid(DeleteCategory(db, cid))
  {
    var r := DeleteCategory(db, cid);
    FilterKeepsDistinctCategoryIds(db.categories, (c: Category) => c.id != cid);
    forall it | it in r.items
      ensures it.category in CategoryIds(r.categories)
    {
      var c :| c in db.categories && c.id == it.category;
      assert c in r.categories;
    }
    forall k | 0 <= k < |r.deliveries| && r.deliveries[k].item.Some?
      ensures r.deliveries[k].item.value in ItemIds(r.items)
    {
      var x := r.deliveries[k].item.value;
      assert db.deliveries[k].item == Some(x);
      var it :| it in db.items && it.id == x;
      assert it.category != cid;
      assert it in r.items;
    }
  }

  /** The items table with `vid` removed from every vendor reference. */
  function NullVendorRefs(its: seq<Item>, vid: nat): (r: seq<Item>)
    ensures |r| == |its|
    ensures forall k :: 0 <= k < |its| ==> r[k].(vendor := its[k].vendor) == its[k]
    ensures forall k :: 0 <= k < |its| ==> r[k].vendor != Some(vid)
    ensures forall k :: 0 <= k < |its| ==> its[k].vendor != Some(vid) ==> r[k].vendor == its[k].vendor
  {
    seq(|its|, k requires 0 <= k < |its| =>
      if its[k].vendor == Some(vid) then its[k].(vendor := None) else its[k])
  }

  /** Deleting a vendor: items it supplied keep existing with a null
      vendor (`on_delete=SET_NULL` on `Item.vendor`); nothing else
      changes. */
  function DeleteVendor(db: Db, vid: nat): (r: Db)
    ensures r.(vendors := db.vendors, items := db.items) == db
    ensures forall v :: v in r.vendors <==> v in db.vendors && v.id != vid
    ensures |r.items| == |db.items|
    ensures forall k :: 0 <= k < |db.items| ==> r.items[k].(vendor := db.items[k].vendor) == db.items[k]
    ensures forall k :: 0 <= k < |db.items| ==>
      (r.items[k].vendor == None <==> db.items[k].vendor == None || db.items[k].vendor == Some(vid))
    ensures forall k :: 0 <= k < |db.items| ==>
      r.items[k].vendor == (if db.items[k].vendor == Some(vid) then None else db.items[k].vendor)
    ensures IsSubsequence(r.vendors, db.vendors)
  {
    db.(vendors := Filter(db.vendors, (v: Vendor) => v.id != vid),
        items := NullVendorRefs(db.items, vid))
  }

  /** Deleting a vendor keeps the database consistent. */
  lemma DeleteVendorKeepsValid(db: Db, vid: nat)
    requires Valid(db)
    ensures Valid(DeleteVendor(db, vid))
  {
    var r := DeleteVendor(db, vid);
    forall it | it in r.items
      ensures it.category in CategoryIds(r.categories)
      ensures it.vendor.Some? ==> it.vendor.value in VendorIds(r.vendors)
    {
      var k :| 0 <= k < |r.items| && r.items[k] == it;
      assert db.items[k] in db.items;
      if it.vendor.Some? {
        var v :| v in db.vendors && v.id == it.vendor.value;
        assert v in r.vendors;
      }
    }
    forall k | 0 <= k < |r.deliveries| && r.deliveries[k].item.Some?
      ensures r.deliveries[k].item.value in ItemIds(r.items)
    {
      var x := r.deliveries[k].item.value;
      var it :| it in db.items && it.id == x;
      var j :| 0 <= j < |db.items| && db.items[j] == it;
      assert r.items[j].id == x;
      assert r.items[j] in r.items;
    }
  }

  /** Deleting an item: deliveries of it keep existing with a null item
      (`on_delete=SET_NULL` on `Delivery.item`); nothing else changes. */
  function DeleteItem(db: Db, iid: nat): (r: Db)
    ensures r.(items := db.items, deliveries := db.deliveries) == db
    ensures forall it :: it in r.items <==> it in db.items && it.id != iid
    ensures |r.deliveries| == |db.deliveries|
    ensures forall k :: 0 <= k < |db.deliveries| ==> r.deliveries[k].(item := db.deliveries[k].item) == db.deliveries[k]
    ensures forall k :: 0 <= k < |db.deliveries| ==>
      (r.deliveries[k].item == None <==> db.deliveries[k].item == None || db.deliveries[k].item == Some(iid))
    ensures forall k :: 0 <= k < |db.deliveries| ==>
      r.deliveries[k].item == (if db.deliveries[k].item == Some(iid) then None else db.deliveries[k].item)
    ensures IsSubsequence(r.items, db.items)
  {
    db.(items := Filter(db.items, (it: Item) => it.id != iid),
        deliveries := NullItemRefs(db.deliveries, {iid}))
  }

  /** Deleting an item keeps the database consistent: no delivery points
      at it any more. */
  lemma DeleteItemKeepsValid(db: Db, iid: nat)
    requires Valid(db)
    ensures Valid(DeleteItem(db, iid))
  {
    var r := DeleteItem(db, iid);
    forall k | 0 <= k < |r.deliveries| && r.deliveries[k].item.Some?
      ensures r.deliveries[k].item.value in ItemIds(r.items)
    {
      var x := r.deliveries[k].item.value;
      var it :| it in db.items && it.id == x;
      assert it in r.items;
    }
  }

  /** Deleting a customer: that customer's deliveries are deleted with it
      (`on_delete=CASCADE` on `Delivery.customer`); every other delivery,
      in its original order, and every other table is unchanged. */
  function DeleteCustomer(db: Db, cid: nat): (r: Db)
    ensures r.(customers := db.customers, deliveries := db.deliveries) == db
    ensures forall c :: c in r.customers <==> c in db.customers && c.id != cid
    ensures forall d :: d in r.deliveries <==> d in db.deliveries && d.customer != Some(cid)
    ensures IsSubsequence(r.customers, db.customers)
    ensures IsSubsequence(r.deliveries, db.deliveries)
  {
    db.(customers := Filter(db.customers, (c: Customer) => c.id != cid),
        deliveries := Filter(db.deliveries, (d: Delivery) => d.customer != Some(cid)))
  }

  /** Deleting a customer keeps the database consistent: no delivery
      points at it any more. */
  lemma DeleteCustomerKeepsValid(db: Db, cid: nat)
    requires Valid(db)
    ensures Valid(DeleteCustomer(db, cid))
  {
    var r := DeleteCustomer(db, cid);
    forall k | 0 <= k < |r.deliveries|
      ensures r.deliveries[k].customer.Some? ==> r.deliveries[k].customer.value in CustomerIds(r.customers)
      ensures r.deliveries[k].item.Some? ==> r.deliveries[k].item.value in ItemIds(r.items)
    {
      var d := r.deliveries[k];
      assert d in db.deliveries;
      var j :| 0 <= j < |db.deliveries| && db.deliveries[j] == d;
      if d.customer.Some? {
        var c :| c in db.customers && c.id == d.customer.value;
        assert c in r.customers;
      }
    }
  }
}

=== FILE: profile_signals.dfy ===
/** The post-save hook on user accounts (salesmgt/accounts/signals.py):
    a new user gets a profile, and a saved user whose profile has gone
    missing gets a new one, so every saved user ends with exactly one. */
module ProfileSignals {
  import opened Wrappers
  import opened Seqs
  import opened Accounts
  import opened Database

  /** How a write to the database can fail. */
  datatype DbError = IntegrityError(message: string)

  /** The number of profiles that belong to user `uid`. */
  function ProfileCount(ps: seq<Profile>, uid: nat): nat {
    CountWhere(ps, (p: Profile) => p.user == uid)
  }

  /** User `uid` has a profile (`instance.profile` does not raise). */
  predicate HasProfile(ps: seq<Profile>, uid: nat) {
    exists k :: 0 <= k < |ps| && ps[k].user == uid
  }

  /** Under the one-to-one constraint a user has a profile exactly when it
      has one profile, and otherwise none. */
  lemma ProfileCountOneToOne(ps: seq<Profile>, uid: nat)
    requires ProfilesOneToOne(ps)
    ensures HasProfile(ps, uid) ==> ProfileCount(ps, uid) == 1
    ensures !HasProfile(ps, uid) ==> ProfileCount(ps, uid) == 0
    decreases |ps|
  {
    if ps != [] {
      ProfileCountOneToOne(ps[1..], uid);
      assert HasProfile(ps, uid) && ps[0].user != uid ==> HasProfile(ps[1..], uid) by {
        if HasProfile(ps, uid) && ps[0].user != uid {
          var k :| 0 <= k < |ps| && ps[k].user == uid;
          assert ps[1..][k - 1].user == uid;
        }
      }
      assert HasProfile(ps[1..], uid) ==> HasProfile(ps, uid) by {
        if HasProfile(ps[1..], uid) {
          var k :| 0 <= k < |ps[1..]| && ps[1..][k].user == uid;
          assert ps[k + 1].user == uid;
        }
      }
      assert ps[0].user == uid ==> !HasProfile(ps[1..], uid);
    }
  }

  /** `Profile.objects.create(user=...)`: inserts a default profile, or
      fails when the user already has one, because `Profile.user` is a
      one-to-one field, or when no such user exists, because it is a
      foreign key. */
  function CreateProfile(db: Db, uid: nat): (r: Result<Db, DbError>)
    ensures r.Failure? <==> HasProfile(db.profiles, uid) || uid !in UserIds(db.users)
    ensures r.Success? ==> r.value.(profiles := db.profiles) == db
    ensures r.Success? ==> r.value.profiles == db.profiles + [DefaultProfile(uid)]
    ensures r.Success? ==> HasProfile(r.value.profiles, uid)
  {
    if HasProfile(db.profiles, uid) then
      Failure(IntegrityError("UNIQUE constraint failed: profile.user_id"))
    else if uid !in UserIds(db.users) then
      Failure(IntegrityError("FOREIGN KEY constraint failed"))
    else
      var ps := db.profiles + [DefaultProfile(uid)];
      assert ps[|db.profiles|].user == uid;
      Success(db.(profiles := ps))
  }

  /** `create_or_update_user_profile`, run after user `u` has been saved
      (`created` tells whether the save inserted it). A new user gets a
      profile; an updated user's existing profile is saved again unchanged;
      an updated user without a profile gets one re-created. */
  function OnUserSaved(db: Db, u: User, created: bool): (r: Result<Db, DbError>)
    requires u.id in UserIds(db.users)
    ensures r.Failure? <==> created && HasProfile(db.profiles, u.id)
    ensures !created && HasProfile(db.profiles, u.id) ==> r == Success(db)
    ensures r.Success? ==> r.value.(profiles := db.profiles) == db
    ensures r.Success? ==> HasProfile(r.value.profiles, u.id)
    ensures r.Success? ==> forall p: Profile :: p.user != u.id ==> (p in r.value.profiles <==> p in db.profiles)
    ensures r.Success? && !HasProfile(db.profiles, u.id) ==> r.value.profiles == db.profiles + [DefaultProfile(u.id)]
  {
    if created then
      CreateProfile(db, u.id)
    else if HasProfile(db.profiles, u.id) then
      Success(db)
    else
      CreateProfile(db, u.id)
  }

  /** The hook keeps the database consistent and leaves the saved user
      with exactly one profile. */
  lemma OnUserSavedKeepsValid(db: Db, u: User, created: bool)
    requires Valid(db)
    requires u.id in UserIds(db.users)
    requires OnUserSaved(db, u, created).Success?
    ensures Valid(OnUserSaved(db, u, created).value)
    ensures ProfileCount(OnUserSaved(db, u, created).value.profiles, u.id) == 1
  {
    var r := OnUserSaved(db, u, created).value;
    if r != db {
      assert !HasProfile(db.profiles, u.id);
      assert r.profiles == db.profiles + [DefaultProfile(u.id)];
      forall i, j | 0 <= i < j < |r.profiles|
        ensures r.profiles[i].user != r.profiles[j].user
      {
        if j == |db.profiles| {
          assert r.profiles[i] == db.profiles[i];
        }
      }
    }
    ProfileCountOneToOne(r.profiles, u.id);
  }

  /** A user created through the framework (no profile yet) comes out of
      the hook with a profile in its default state. */
  lemma OnUserCreatedAddsDefaultProfile(db: Db, u: User)
    requires u.id in UserIds(db.users)
    requires !HasProfile(db.profiles, u.id)
    ensures OnUserSaved(db, u, true) == Success(db.(profiles := db.profiles + [DefaultProfile(u.id)]))
  {
  }

  /** An existing user whose profile has gone missing gets a fresh profile
      in its default state on the next save, appended after the others. */
  lemma OnUserSavedRecreatesDefaultProfile(db: Db, u: User)
    requires u.id in UserIds(db.users)
    requires !HasProfile(db.profiles, u.id)
    ensures OnUserSaved(db, u, false) == Success(db.(profiles := db.profiles + [DefaultProfile(u.id)]))
  {
  }

  /** A second creation of a profile for the same user violates the
      one-to-one constraint. */
  lemma SecondProfileRejected(db: Db, u: User)
    requires u.id in UserIds(db.users)
    requires OnUserSaved(db, u, true).Success?
    ensures CreateProfile(OnUserSaved(db, u, true).value, u.id).Failure?
  {
  }

  /** Once the hook has run, saving the user again without creating it
      changes nothing: non-create saves are idempotent on the profiles. */
  lemma OnUserSavedIdempotent(db: Db, u: User, created: bool)
    requires u.id in UserIds(db.users)
    requires OnUserSaved(db, u, created).Success?
    ensures var db1 := OnUserSaved(db, u, created).value;
            u.id in UserIds(db1.users) && OnUserSaved(db1, u, false) == Success(db1)
  {
  }
}

=== FILE: seqs.dfy ===
/** Generic sequence helpers: the query-set operations the model needs
    (filter, slicing to a limit, counting) over tables held as sequences. */
module Seqs {

  /** `a` can be obtained from `b` by deleting elements: an order-preserving
      sub-list. */
  predicate IsSubsequence<T(==)>(a: seq<T>, b: seq<T>)
    decreases |b|
  {
    if a == [] then true
    else if b == [] then false
    else (a[0] == b[0] && IsSubsequence(a[1..], b[1..])) || IsSubsequence(a, b[1..])
  }

  /** Every sequence is a subsequence of itself. */
  lemma {:induction false} SubsequenceReflexive<T>(s: seq<T>)
    ensures IsSubsequence(s, s)
  {
    if s != [] {
      SubsequenceReflexive(s[1..]);
    }
  }

  /** The elements of `s` that satisfy `keep`, in their original order
      (a query set's `.filter(...)`). */
  function Filter<T(==,!new)>(s: seq<T>, keep: T -> bool): (r: seq<T>)
    ensures |r| <= |s|
    ensures forall x :: x in r <==> x in s && keep(x)
    ensures IsSubsequence(r, s)
  {
    if s == [] then []
    else if keep(s[0]) then [s[0]] + Filter(s[1..], keep)
    else Filter(s[1..], keep)
  }

  /** Number of elements of `s` that satisfy `p`. */
  function CountWhere<T>(s: seq<T>, p: T -> bool): (n: nat)
    ensures n <= |s|
    ensures n == 0 <==> forall k :: 0 <= k < |s| ==> !p(s[k])
    ensures n == |s| <==> forall k :: 0 <= k < |s| ==> p(s[k])
  {
    if s == [] then 0
    else
      var rest := CountWhere(s[1..], p);
      assert forall k :: 1 <= k < |s| ==> s[1..][k - 1] == s[k];
      (if p(s[0]) then 1 else 0) + rest
  }


  /** The first `n` elements of `s`, or all of them when there are fewer
      (Python's `s[:n]`). */
  function Take<T>(s: seq<T>, n: nat): (r: seq<T>)
    ensures |r| == if |s| < n then |s| else n
    ensures r <= s
  {
    if |s| <= n then s else s[..n]
  }

  /** `body` framed by `head` before and `tail` after, each recoverable by
      position. */
  function Surround<T>(head: seq<T>, body: seq<T>, tail: seq<T>): (r: seq<T>)
    ensures |r| == |head| + |body| + |tail|
    ensures head <= r
    ensures r[|head|..|head| + |body|] == body
    ensures r[|r| - |tail|..] == tail
  {
    head + body + tail
  }
}

=== FILE: store_forms.dfy ===
/** Form-level validation of the inventory screens
    (salesmgt/store/forms.py): the quantity and price checks of the item
    form, and the customer-selection rule of the delivery form. */
module StoreForms {
  import opened Wrappers

  /** What a `clean_<field>` method does: return the cleaned value or raise
      a validation error with a message. */
  datatype FieldClean<T> = Cleaned(value: T) | Invalid(message: string)

  const QuantityError: string := "The quantity must be 1 or greater."
  const PriceError: string := "The price cannot be negative."

  /** `ItemForm.clean_quantity`: a quantity below 1 is rejected; a missing
      quantity (left to the field's own `required` check) and any quantity
      of 1 or more pass through unchanged. */
  function CleanQuantity(quantity: Option<int>): (r: FieldClean<Option<int>>)
    ensures r.Invalid? <==> quantity.Some? && quantity.value < 1
    ensures r.Invalid? ==> r.message == QuantityError
    ensures r.Cleaned? ==> r.value == quantity
  {
    match quantity
    case Some(q) => if q < 1 then Invalid(QuantityError) else Cleaned(quantity)
    case None => Cleaned(quantity)
  }

  /** `ItemForm.clean_price`: a negative price is rejected; zero, any
      positive price and a missing price pass through unchanged. */
  function CleanPrice(price: Option<real>): (r: FieldClean<Option<real>>)
    ensures r.Invalid? <==> price.Some? && price.value < 0.0
    ensures r.Invalid? ==> r.message == PriceError
    ensures r.Cleaned? ==> r.value == price
  {
    match price
    case Some(p) => if p < 0.0 then Invalid(PriceError) else Cleaned(price)
    case None => Cleaned(price)
  }

  /** Cleaning a cleaned quantity or price again changes nothing. */
  lemma CleanItemFieldsIdempotent(quantity: Option<int>, price: Option<real>)
    ensures CleanQuantity(quantity).Cleaned? ==> CleanQuantity(CleanQuantity(quantity).value) == CleanQuantity(quantity)
    ensures CleanPrice(price).Cleaned? ==> CleanPrice(CleanPrice(price).value) == CleanPrice(price)
  {
  }

  /** The customer-related inputs of the delivery form after field
      cleaning. A field that failed its own validation is absent (`None`)
      from the cleaned data; an empty optional text field is "". */
  datatype DeliveryFormData = DeliveryFormData(
    existingCustomer: Option<nat>,
    newFirstName: Option<string>,
    newPhone: Option<string>,
    newLocation: Option<string>)

  /** Python truthiness of an optional text value. */
  predicate Truthy(s: Option<string>) {
    s.Some? && s.value != ""
  }

  /** `is_new_customer`: a first name or a phone was given. The location
      alone does not count. */
  predicate IsNewCustomer(f: DeliveryFormData) {
    Truthy(f.newFirstName) || Truthy(f.newPhone)
  }

  /** The two fields `clean` can attach an error to. */
  datatype FormField = NewCustomerFirstName | NewCustomerPhone

  /** An error attached to one field (`add_error`). */
  datatype FieldError = FieldError(field: FormField, message: string)

  /** What `DeliveryForm.clean` does: raise a form-wide (non-field) error,
      or return after attaching zero or more field errors. */
  datatype DeliveryClean = Raised(message: string) | Returned(fieldErrors: seq<FieldError>)

  const BothGivenError: string :=
    "Please either select an existing customer OR fill out the new customer details, not both."
  const NeitherGivenError: string :=
    "You must either select an existing customer or provide details for a new one."
  const FirstNameRequired: FieldError :=
    FieldError(NewCustomerFirstName, "First Name is required for a new customer.")
  const PhoneRequired: FieldError :=
    FieldError(NewCustomerPhone, "Phone Number is required for a new customer.")

  /** `DeliveryForm.clean`. Exactly one of "existing customer" and "new
      customer" must be chosen, else a form-wide error is raised; a new
      customer must have both a first name and a phone, else the missing
      one gets a field error. */
  function CleanDelivery(f: DeliveryFormData): (r: DeliveryClean)
    ensures r.Raised? <==> (f.existingCustomer.Some? <==> IsNewCustomer(f))
    ensures r.Raised? && f.existingCustomer.Some? ==> r.message == BothGivenError
    ensures r.Raised? && f.existingCustomer.None? ==> r.message == NeitherGivenError
    ensures r.Returned? ==> (FirstNameRequired in r.fieldErrors <==> f.existingCustomer.None? && !Truthy(f.newFirstName))
    ensures r.Returned? ==> (PhoneRequired in r.fieldErrors <==> f.existingCustomer.None? && !Truthy(f.newPhone))
    ensures r.Returned? ==> forall e :: e in r.fieldErrors ==> e == FirstNameRequired || e == PhoneRequired
    ensures r.Returned? ==> |r.fieldErrors| <= 1
  {
    var isNew := Truthy(f.newFirstName) || Truthy(f.newPhone);
    if f.existingCustomer.Some? && isNew then
      Raised(BothGivenError)
    else if f.existingCustomer.None? && !isNew then
      Raised(NeitherGivenError)
    else if isNew then
      Returned((if !Truthy(f.newFirstName) then [FirstNameRequired] else [])
               + (if !Truthy(f.newPhone) then [PhoneRequired] else []))
    else
      Returned([])
  }

  /** The form is accepted: `clean` neither raised nor attached an error. */
  predicate Accepted(r: DeliveryClean) {
    r.Returned? && r.fieldErrors == []
  }

  /** The delivery form is accepted exactly when an existing customer is
      selected and no new-customer data is given, or no existing customer
      is selected and both a first name and a phone are given. */
  lemma CleanDeliveryAcceptsExactly(f: DeliveryFormData)
    ensures Accepted(CleanDelivery(f)) <==>
      (f.existingCustomer.Some? && !IsNewCustomer(f))
      || (f.existingCustomer.None? && Truthy(f.newFirstName) && Truthy(f.newPhone))
  {
    var r := CleanDelivery(f);
    if r.Returned? && f.existingCustomer.None? {
      assert !Truthy(f.newFirstName) ==> FirstNameRequired in r.fieldErrors;
      assert !Truthy(f.newPhone) ==> PhoneRequired in r.fieldErrors;
    }
  }

  /** The location field plays no part in the decision: a form that gives
      only a location is treated as giving no customer at all. */
  lemma LocationIsIgnored(f: DeliveryFormData, location: Option<string>)
    ensures CleanDelivery(f.(newLocation := location)) == CleanDelivery(f)
    ensures !Truthy(f.newFirstName) && !Truthy(f.newPhone) && f.existingCustomer.None? ==>
      CleanDelivery(f) == Raised(NeitherGivenError)
  {
  }
}

=== FILE: store_models.dfy ===
/** The inventory entities (salesmgt/store/models.py): categories, items
    and deliveries, their string renderings, the JSON an item is sent as,
    and the default listing order of items (by name). */
module StoreModels {
  import opened Wrappers
  import opened Text
  import opened Accounts
  import opened Seqs

  /** A group of items. */
  datatype Category = Category(id: nat, name: string)

  /** `Category.__str__`: "Category: " followed by the name. */
  function CategoryStr(c: Category): (r: string)
    ensures |r| == 10 + |c.name|
    ensures r[..10] == "Category: " && r[10..] == c.name
  {
    "Category: " + c.name
  }

  /** An inventory item. `category` must name an existing category;
      `vendor` is nullable. `price` is a floating-point column, of which
      the model uses only the sign. */
  datatype Item = Item(
    id: nat,
    name: string,
    description: string,
    category: nat,
    quantity: int,
    price: real,
    vendor: Option<nat>)

  /** An item created with only the required fields given: stock 0,
      price 0 and no vendor. */
  function NewItem(id: nat, name: string, description: string, category: nat): (it: Item)
    ensures it.id == id && it.name == name && it.description == description
    ensures it.category == category
    ensures it.quantity == 0 && it.price == 0.0 && it.vendor == None
  {
    Item(id, name, description, category, 0, 0.0, None)
  }

  /** The fixed text between an item's name and its category. */
  const CategorySep: string := " - Category: "
  /** The fixed text between an item's category and its quantity. */
  const QuantitySep: string := ", Quantity: "

  /** `Item.__str__`: name, the rendered category and the stock level. */
  function ItemStr(it: Item, cat: Category): (r: string)
    requires cat.id == it.category
    ensures ItemStrPrefix(it, cat) <= r
    ensures var c := |it.name| + |CategorySep|;
            var q := c + |CategoryStr(cat)| + |QuantitySep|;
            && |r| == q + |IntToString(it.quantity)|
            && r[..|it.name|] == it.name
            && r[|it.name|..c] == CategorySep
            && r[c..c + |CategoryStr(cat)|] == CategoryStr(cat)
            && r[c + |CategoryStr(cat)|..q] == QuantitySep
            && r[q..] == IntToString(it.quantity)
  {
    it.name + CategorySep + CategoryStr(cat) + QuantitySep + IntToString(it.quantity)
  }

  /** Everything `Item.__str__` prints before the quantity. */
  function ItemStrPrefix(it: Item, cat: Category): string {
    it.name + CategorySep + CategoryStr(cat) + QuantitySep
  }

  /** The rendering of an item tells stock levels apart: two renderings
      of the same item that differ only in quantity are different. */
  lemma ItemStrDistinguishesQuantity(it: Item, cat: Category, q: int)
    requires cat.id == it.category
    requires ItemStr(it, cat) == ItemStr(it.(quantity := q), cat)
    ensures it.quantity == q
  {
    var p := ItemStrPrefix(it, cat);
    assert ItemStrPrefix(it.(quantity := q), cat) == p;
    var a := IntToString(it.quantity);
    var b := IntToString(q);
    assert (p + a)[|p|..] == a;
    assert (p + b)[|p|..] == b;
    IntToStringInjective(it.quantity, q);
  }

  /** The dictionary `Item.to_json` returns: the model's own fields, with
      `id`, `text`, `category`, `quantity` and `total_product` overridden. */
  datatype ItemJson = ItemJson(
    id: nat,
    text: string,
    name: string,
    description: string,
    category: string,
    quantity: int,
    totalProduct: int,
    price: real,
    vendor: Option<nat>)

  /** `Item.to_json`: `text` is the item's name, `category` its category's
      name, and the quantity is always 1 and `total_product` always 0,
      whatever the item's stock. */
  function ToJson(it: Item, cat: Category): (j: ItemJson)
    requires cat.id == it.category
    ensures j.id == it.id && j.text == it.name && j.name == it.name
    ensures j.category == cat.name
    ensures j.quantity == 1 && j.totalProduct == 0
    ensures j.price == it.price && j.vendor == it.vendor && j.description == it.description
  {
    ItemJson(it.id, it.name, it.name, it.description, cat.name, 1, 0, it.price, it.vendor)
  }

  /** The JSON of an item does not reveal its stock level. */
  lemma ToJsonIgnoresStock(it: Item, cat: Category, q: int)
    requires cat.id == it.category
    ensures ToJson(it, cat) == ToJson(it.(quantity := q), cat)
  {
  }

  /** A delivery; both references are nullable. `date` is the scheduled
      timestamp, kept opaque. */
  datatype Delivery = Delivery(id: nat, item: Option<nat>, customer: Option<nat>, date: int, isDelivered: bool)

  /** A delivery created without saying whether it was delivered: it is
      not. */
  function NewDelivery(id: nat, item: Option<nat>, customer: Option<nat>, date: int): (d: Delivery)
    ensures d.id == id && d.item == item && d.customer == customer && d.date == date
    ensures !d.isDelivered
  {
    Delivery(id, item, customer, date, false)
  }

  /** How Python renders the delivery's item inside an f-string: the
      item's `__str__`, or "None" when the reference is null. */
  function ItemText(item: Option<(Item, Category)>): string
    requires item.Some? ==> item.value.1.id == item.value.0.category
  {
    match item
    case None => "None"
    case Some((it, cat)) => ItemStr(it, cat)
  }

  /** The address is present and non-empty (Python truthiness). */
  predicate HasAddress(c: Customer) {
    c.address.Some? && c.address.value != ""
  }

  /** The name a delivery shows for its customer: the full name, or
      "Unknown Customer" when the reference is null. */
  function CustomerName(customer: Option<Customer>): (r: string)
    ensures customer.None? ==> r == "Unknown Customer"
    ensures customer.Some? ==> r == FullName(customer.value)
  {
    match customer
    case None => "Unknown Customer"
    case Some(c) => FullName(c)
  }

  /** The location a delivery shows: the customer's address when there is
      a customer whose address is non-empty, "Unknown Location" in every
      other case (no customer, null address, empty address). */
  function CustomerLocation(customer: Option<Customer>): (r: string)
    ensures customer.Some? && HasAddress(customer.value) ==> r == customer.value.address.value
    ensures customer.None? || !HasAddress(customer.value) ==> r == "Unknown Location"
  {
    if customer.Some? && customer.value.address.Some? && customer.value.address.value != "" then
      customer.value.address.value
    else
      "Unknown Location"
  }

  /** `Delivery.__str__`, given the referenced item and customer (or their
      absence, which the references must agree with) and the `%Y-%m-%d`
      rendering of the date. */
  function DeliveryStr(d: Delivery, item: Option<(Item, Category)>, customer: Option<Customer>, dateText: string): (r: string)
    requires item.Some? ==> item.value.1.id == item.value.0.category
    requires d.item == (if item.Some? then Some(item.value.0.id) else None)
    requires d.customer == (if customer.Some? then Some(customer.value.id) else None)
    ensures ("Delivery of " + ItemText(item) + " to ") <= r
    ensures var head := "Delivery of " + ItemText(item) + " to ";
            var middle := CustomerName(customer) + " at " + CustomerLocation(customer) + " on ";
            |r| == |head| + |middle| + |dateText| && r[|head|..|head| + |middle|] == middle
    ensures |r| >= |dateText| && r[|r| - |dateText|..] == dateText
  {
    Surround("Delivery of " + ItemText(item) + " to ",
             CustomerName(customer) + " at " + CustomerLocation(customer) + " on ",
             dateText)
  }

  // ---- Default ordering of items: `ordering = ['name']` ----

  /** Lexicographic order on names by code point: `a` sorts no later than
      `b`. */
  predicate NameLe(a: string, b: string) {
    a == [] || (b != [] && (a[0] < b[0] || (a[0] == b[0] && NameLe(a[1..], b[1..]))))
  }

  /** Any two names are comparable. */
  lemma {:induction false} NameLeTotal(a: string, b: string)
    ensures NameLe(a, b) || NameLe(b, a)
  {
    if a != [] && b != [] && a[0] == b[0] {
      NameLeTotal(a[1..], b[1..]);
    }
  }

  /** The name order is transitive. */
  lemma {:induction false} NameLeTransitive(a: string, b: string, c: string)
    requires NameLe(a, b) && NameLe(b, c)
    ensures NameLe(a, c)
  {
    if a != [] && b != [] && c != [] && a[0] == b[0] && b[0] == c[0] {
      NameLeTransitive(a[1..], b[1..], c[1..]);
    }
  }

  /** The name order is antisymmetric: it is a total order. */
  lemma {:induction false} NameLeAntisymmetric(a: string, b: string)
    requires NameLe(a, b) && NameLe(b, a)
    ensures a == b
  {
    if a != [] && b != [] {
      NameLeAntisymmetric(a[1..], b[1..]);
      assert a == [a[0]] + a[1..];
      assert b == [b[0]] + b[1..];
    }
  }

  /** Each item's name sorts no later than the next one's. */
  predicate SortedByName(s: seq<Item>) {
    forall k :: 0 <= k < |s| - 1 ==> NameLe(s[k].name, s[k + 1].name)
  }

  /** In a list sorted by name, every earlier item sorts no later than
      every later one. */
  lemma {:induction false} SortedByNamePairwise(s: seq<Item>, i: nat, j: nat)
    requires SortedByName(s)
    requires i <= j < |s|
    ensures NameLe(s[i].name, s[j].name)
    decreases j - i
  {
    if i == j {
      NameLeTotal(s[i].name, s[i].name);
    } else {
      SortedByNamePairwise(s, i + 1, j);
      NameLeTransitive(s[i].name, s[i + 1].name, s[j].name);
    }
  }

  /** Inserts `x` into a name-sorted list, before the first item whose
      name it sorts no later than. */
  function InsertByName(x: Item, s: seq<Item>): (r: seq<Item>)
    requires SortedByName(s)
    ensures SortedByName(r)
    ensures multiset(r) == multiset(s) + multiset{x}
    ensures |r| == |s| + 1
    ensures r[0] == x || (s != [] && r[0] == s[0])
  {
    if s == [] || NameLe(x.name, s[0].name) then
      [x] + s
    else
      var rest := InsertByName(x, s[1..]);
      NameLeTotal(x.name, s[0].name);
      assert s == [s[0]] + s[1..];
      [s[0]] + rest
  }

  /** The items in the default listing order: sorted by name, holding
      exactly the given items. */
  function ItemsByName(items: seq<Item>): (r: seq<Item>)
    ensures SortedByName(r)
    ensures multiset(r) == multiset(items)
    ensures |r| == |items|
  {
    if items == [] then []
    else
      assert items == [items[0]] + items[1..];
      InsertByName(items[0], ItemsByName(items[1..]))
  }
}

=== FILE: store_views.dfy ===
/** The request handlers of the inventory screens
    (salesmgt/store/views.py) reduced to what they compute: the dashboard
    figures, the item search, the AJAX item lookup and the permission
    checks that guard the product and delivery screens. */
module StoreViews {
  import opened Wrappers
  import opened Seqs
  import opened Text
  import opened Accounts
  import opened StoreModels
  import opened Database

  // ---- Dashboard ----

  /** The figures the dashboard view puts in its template context. */
  datatype Dashboard = Dashboard(
    totalItems: Option<int>,
    itemsCount: nat,
    profilesCount: nat,
    categories: seq<string>,
    categoryCounts: seq<nat>)

  /** The sum of the items' stock levels (the `Sum("quantity")`
      aggregate over a non-empty table). */
  function TotalQuantity(items: seq<Item>): (t: int)
    ensures items == [] ==> t == 0
    ensures (forall k :: 0 <= k < |items| ==> items[k].quantity >= 0) ==> t >= 0
    ensures (forall k :: 0 <= k < |items| ==> items[k].quantity >= 0) && t == 0 ==>
      forall k :: 0 <= k < |items| ==> items[k].quantity == 0
  {
    if items == [] then 0
    else
      assert forall k :: 1 <= k < |items| ==> items[1..][k - 1] == items[k];
      items[0].quantity + TotalQuantity(items[1..])
  }

  /** The total over two lists joined is the sum of their totals. */
  lemma {:induction false} TotalQuantityAppend(a: seq<Item>, b: seq<Item>)
    ensures TotalQuantity(a + b) == TotalQuantity(a) + TotalQuantity(b)
  {
    if a == [] {
      assert a + b == b;
    } else {
      assert (a + b)[1..] == a[1..] + b;
      TotalQuantityAppend(a[1..], b);
    }
  }

  /** The filter "the item belongs to category `cid`". */
  function InCategory(cid: nat): Item -> bool {
    (it: Item) => it.category == cid
  }

  /** The filter "the category has id `id`". */
  function HasCategoryId(id: nat): Category -> bool {
    (c: Category) => c.id == id
  }

  /** The number of items in category `cid` (`Count("item")`). */
  function CategoryItemCount(items: seq<Item>, cid: nat): (n: nat)
    ensures n <= |items|
    ensures n == 0 <==> forall k :: 0 <= k < |items| ==> items[k].category != cid
  {
    CountWhere(items, InCategory(cid))
  }

  /** One item count per category, in the categories' order. */
  function CategoryCounts(items: seq<Item>, cats: seq<Category>): (r: seq<nat>)
    ensures |r| == |cats|
    ensures forall k :: 0 <= k < |cats| ==> r[k] == CategoryItemCount(items, cats[k].id)
  {
    if cats == [] then []
    else [CategoryItemCount(items, cats[0].id)] + CategoryCounts(items, cats[1..])
  }

  /** The categories' names, in order. */
  function CategoryNames(cats: seq<Category>): (r: seq<string>)
    ensures |r| == |cats|
    ensures forall k :: 0 <= k < |cats| ==> r[k] == cats[k].name
  {
    seq(|cats|, k requires 0 <= k < |cats| => cats[k].name)
  }

  /** The dashboard view. `total_items` is the `Sum("quantity")`
      aggregate, which is null over an empty table; the two category lists
      are index-aligned, one entry per category. */
  function DashboardData(db: Db): (r: Dashboard)
    ensures r.totalItems.None? <==> db.items == []
    ensures r.totalItems.Some? ==> r.totalItems.value == TotalQuantity(db.items)
    ensures r.itemsCount == |db.items| && r.profilesCount == |db.profiles|
    ensures |r.categories| == |r.categoryCounts| == |db.categories|
    ensures forall k :: 0 <= k < |db.categories| ==> r.categories[k] == db.categories[k].name
    ensures forall k :: 0 <= k < |db.categories| ==> r.categoryCounts[k] == CategoryItemCount(db.items, db.categories[k].id)
  {
    Dashboard(
      if db.items == [] then None else Some(TotalQuantity(db.items)),
      |db.items|,
      |db.profiles|,
      CategoryNames(db.categories),
      CategoryCounts(db.items, db.categories))
  }

  /** The sum of a list of counts. */
  function SumNat(s: seq<nat>): nat {
    if s == [] then 0 else s[0] + SumNat(s[1..])
  }

  /** Adding one item at the front adds, to the total of the per-category
      counts, one for each category carrying that item's category id. */
  lemma {:induction false} CategoryCountsCons(x: Item, rest: seq<Item>, cats: seq<Category>)
    ensures SumNat(CategoryCounts([x] + rest, cats))
         == CountWhere(cats, HasCategoryId(x.category)) + SumNat(CategoryCounts(rest, cats))
  {
    if cats != [] {
      CategoryCountsCons(x, rest, cats[1..]);
      assert ([x] + rest)[1..] == rest;
    }
  }

  /** With distinct ids, exactly one category carries an id that occurs. */
  lemma {:induction false} OneCategoryPerId(cats: seq<Category>, id: nat)
    requires DistinctCategoryIds(cats)
    requires id in CategoryIds(cats)
    ensures CountWhere(cats, HasCategoryId(id)) == 1
  {
    assert DistinctCategoryIds(cats[1..]) by {
      forall i, j | 0 <= i < j < |cats[1..]|
        ensures cats[1..][i].id != cats[1..][j].id
      {
        assert cats[1..][i] == cats[i + 1] && cats[1..][j] == cats[j + 1];
      }
    }
    if cats[0].id == id {
      assert CountWhere(cats[1..], HasCategoryId(id)) == 0 by {
        forall k | 0 <= k < |cats[1..]|
          ensures !HasCategoryId(id)(cats[1..][k])
        {
          assert cats[1..][k] == cats[k + 1];
        }
      }
    } else {
      var c :| c in cats && c.id == id;
      assert c in cats[1..];
      OneCategoryPerId(cats[1..], id);
    }
  }

  /** When every item's category exists and category ids are distinct,
      the per-category counts add up to the number of items. */
  lemma {:induction false} CategoryCountsSum(items: seq<Item>, cats: seq<Category>)
    requires DistinctCategoryIds(cats)
    requires forall it :: it in items ==> it.category in CategoryIds(cats)
    ensures SumNat(CategoryCounts(items, cats)) == |items|
  {
    if items == [] {
      assert SumNat(CategoryCounts([], cats)) == 0 by {
        EmptyCounts(cats);
      }
    } else {
      assert items == [items[0]] + items[1..];
      CategoryCountsCons(items[0], items[1..], cats);
      OneCategoryPerId(cats, items[0].category);
      CategoryCountsSum(items[1..], cats);
    }
  }

  /** Over no items every category count is 0. */
  lemma {:induction false} EmptyCounts(cats: seq<Category>)
    ensures SumNat(CategoryCounts([], cats)) == 0
  {
    if cats != [] {
      EmptyCounts(cats[1..]);
    }
  }

  /** On a consistent database the dashboard's per-category counts add up
      to its item count: every item is counted once, under its own
      category. */
  lemma DashboardCountsAddUp(db: Db)
    requires Valid(db)
    ensures SumNat(DashboardData(db).categoryCounts) == DashboardData(db).itemsCount
  {
    CategoryCountsSum(db.items, db.categories);
  }

  /** When every item holds at least one unit (as the item form demands),
      the total stock is at least the number of items. */
  lemma {:induction false} TotalAtLeastCount(items: seq<Item>)
    requires forall k :: 0 <= k < |items| ==> items[k].quantity >= 1
    ensures TotalQuantity(items) >= |items|
  {
    if items != [] {
      assert forall k :: 0 <= k < |items[1..]| ==> items[1..][k] == items[k + 1];
      TotalAtLeastCount(items[1..]);
    }
  }

  // ---- Item search ----

  /** Why a search fails: `reduce()` of an empty sequence with no initial
      value raises `TypeError`. */
  datatype SearchError = EmptyReduce

  /** The name contains every term, ignoring case. */
  function MatchesAllTerms(name: string, terms: seq<string>): (b: bool)
    ensures b <==> forall k :: 0 <= k < |terms| ==> IContains(name, terms[k])
  {
    if terms == [] then true
    else
      assert forall k :: 1 <= k < |terms| ==> terms[1..][k - 1] == terms[k];
      IContains(name, terms[0]) && MatchesAllTerms(name, terms[1..])
  }

  /** The filter "the name contains every term". */
  function MatchesTerms(terms: seq<string>): Item -> bool {
    (it: Item) => MatchesAllTerms(it.name, terms)
  }

  /** `ItemSearchListView.get_queryset` over the listing `items`. An absent
      or empty query keeps every item. Otherwise the query is split on
      whitespace and an item is kept when its name contains every term,
      ignoring case; a query of whitespace only splits into no terms, and
      combining no conditions with `reduce` fails. */
  function SearchItems(items: seq<Item>, query: Option<string>): (r: Result<seq<Item>, SearchError>)
    ensures r.Failure? <==> query.Some? && query.value != "" && AllSpace(query.value)
    ensures query.None? || query == Some("") ==> r == Success(items)
    ensures r.Success? && query.Some? && query.value != "" ==>
      forall it :: it in r.value <==> it in items && MatchesAllTerms(it.name, Split(query.value))
    ensures r.Success? ==> IsSubsequence(r.value, items)
  {
    SubsequenceReflexive(items);
    match query
    case None => Success(items)
    case Some(q) =>
      if q == "" then Success(items)
      else
        var terms := Split(q);
        if terms == [] then Failure(EmptyReduce)
        else Success(Filter(items, MatchesTerms(terms)))
  }

  /** Putting an item in front of a name-sorted list whose head it sorts
      no later than keeps the list sorted. */
  lemma SortedByNameCons(x: Item, s: seq<Item>)
    requires SortedByName(s)
    requires s != [] ==> NameLe(x.name, s[0].name)
    ensures SortedByName([x] + s)
  {
    var r := [x] + s;
    assert forall k :: 1 <= k < |r| - 1 ==> r[k] == s[k - 1] && r[k + 1] == s[k];
  }

  /** Selecting from a name-sorted list keeps it sorted by name. */
  lemma {:induction false} FilterKeepsSortedByName(s: seq<Item>, keep: Item -> bool)
    requires SortedByName(s)
    ensures SortedByName(Filter(s, keep))
  {
    if s != [] {
      var tail := s[1..];
      assert SortedByName(tail) by {
        assert forall k :: 0 <= k < |tail| ==> tail[k] == s[k + 1];
      }
      FilterKeepsSortedByName(tail, keep);
      var rest := Filter(tail, keep);
      if keep(s[0]) {
        assert Filter(s, keep) == [s[0]] + rest;
        if rest != [] {
          assert rest[0] in tail;
          var j :| 0 <= j < |tail| && tail[j] == rest[0];
          SortedByNamePairwise(s, 0, j + 1);
        }
        SortedByNameCons(s[0], rest);
      } else {
        assert Filter(s, keep) == rest;
      }
    }
  }

  /** Two lists with the same multiset of items hold the same items. */
  lemma SameItems(a: seq<Item>, b: seq<Item>)
    requires multiset(a) == multiset(b)
    ensures forall it :: it in a <==> it in b
  {
    forall it: Item
      ensures it in a <==> it in b
    {
      assert it in a <==> it in multiset(a);
      assert it in b <==> it in multiset(b);
    }
  }

  /** The search as the product list shows it: over all items in name
      order; the matches stay in name order. */
  function ItemSearch(db: Db, query: Option<string>): (r: Result<seq<Item>, SearchError>)
    ensures r.Success? ==> SortedByName(r.value)
    ensures r.Success? ==> forall it :: it in r.value ==> it in db.items
    ensures r.Failure? <==> query.Some? && query.value != "" && AllSpace(query.value)
    ensures r.Success? && query.Some? && query.value != "" ==>
      forall it :: it in r.value <==> it in db.items && MatchesAllTerms(it.name, Split(query.value))
    ensures query.None? || query == Some("") ==> r.Success? && multiset(r.value) == multiset(db.items)
    ensures r.Success? ==> IsSubsequence(r.value, ItemsByName(db.items))
  {
    var listing := ItemsByName(db.items);
    SameItems(listing, db.items);
    var r := SearchItems(listing, query);
    if r.Success? && query.Some? && query.value != "" then
      FilterKeepsSortedByName(listing, MatchesTerms(Split(query.value)));
      r
    else
      r
  }

  /** A one-word query keeps exactly the items whose name contains the
      word, ignoring case. */
  lemma SearchOneWord(items: seq<Item>, word: string)
    requires |word| > 0 && NoSpace(word)
    ensures SearchItems(items, Some(word)).Success?
    ensures forall it :: it in SearchItems(items, Some(word)).value <==> it in items && IContains(it.name, word)
  {
    SplitSingleWord(word);
    assert !IsSpace(word[0]);
    var r := SearchItems(items, Some(word));
    assert r == Success(Filter(items, MatchesTerms([word])));
    forall it: Item
      ensures MatchesAllTerms(it.name, [word]) <==> IContains(it.name, word)
    {
    }
  }

  // ---- AJAX item lookup ----

  /** The parts of an HTTP request the lookup reads. `meta` holds the
      request headers under their CGI names. */
  datatype Request = Request(
    httpMethod: string,
    authenticated: bool,
    meta: map<string, string>,
    post: map<string, string>)

  /** The responses the lookup can produce. */
  datatype Response =
    | MethodNotAllowed
    | RedirectToLogin
    | JsonItems(items: seq<ItemJson>)
    | JsonError(status: int, error: string)

  /** `request.META.get(key)`: the value under `key`, or `None`. */
  function MetaGet(meta: map<string, string>, key: string): (r: Option<string>)
    ensures r.Some? <==> key in meta
    ensures r.Some? ==> r.value == meta[key]
  {
    if key in meta then Some(meta[key]) else None
  }

  /** The CGI name of the `X-Requested-With` header. */
  const RequestedWithHeader := "HTTP_X_REQUESTED_WITH"

  /** `is_ajax`: the `X-Requested-With` header is `XMLHttpRequest`; a
      missing header compares as `None` and so does not match. */
  function IsAjax(req: Request): (b: bool)
    ensures RequestedWithHeader !in req.meta ==> !b
    ensures b <==> RequestedWithHeader in req.meta && req.meta[RequestedWithHeader] == "XMLHttpRequest"
  {
    MetaGet(req.meta, RequestedWithHeader) == Some("XMLHttpRequest")
  }

  /** Only the `X-Requested-With` header decides: setting any other
      header leaves the answer as it was, and the value is compared
      exactly, so another spelling of it does not count. */
  lemma IsAjaxOnlyThatHeader(req: Request, h: string, v: string)
    requires h != RequestedWithHeader
    ensures IsAjax(req.(meta := req.meta[h := v])) == IsAjax(req)
    ensures !IsAjax(req.(meta := req.meta[RequestedWithHeader := "xmlhttprequest"]))
  {
    assert "xmlhttprequest"[0] != "XMLHttpRequest"[0];
  }

  /** At most this many items are returned by a lookup (`items[:10]`). */
  const LookupLimit: nat := 10

  /** The category with id `id`, if there is one. */
  function FindCategory(cats: seq<Category>, id: nat): (r: Option<Category>)
    ensures r.Some? ==> r.value in cats && r.value.id == id
    ensures r.None? <==> id !in CategoryIds(cats)
  {
    if cats == [] then None
    else if cats[0].id == id then Some(cats[0])
    else
      var r := FindCategory(cats[1..], id);
      assert forall c :: c in cats && c != cats[0] ==> c in cats[1..];
      r
  }

  /** `to_json()` of every item in `page`, or `None` when an item's
      category cannot be loaded (the lookup's `except` branch). */
  function ItemsToJson(page: seq<Item>, cats: seq<Category>): (r: Option<seq<ItemJson>>)
    ensures r.None? <==> exists k :: 0 <= k < |page| && page[k].category !in CategoryIds(cats)
    ensures r.Some? ==> |r.value| == |page|
    ensures r.Some? ==> forall k :: 0 <= k < |page| ==>
      r.value[k].id == page[k].id && r.value[k].text == page[k].name
      && r.value[k].quantity == 1 && r.value[k].totalProduct == 0
    ensures r.Some? ==> forall k :: 0 <= k < |page| ==>
      FindCategory(cats, page[k].category).Some?
      && r.value[k] == ToJson(page[k], FindCategory(cats, page[k].category).value)
  {
    if page == [] then Some([])
    else
      match FindCategory(cats, page[0].category)
      case None => None
      case Some(cat) =>
        var rest := ItemsToJson(page[1..], cats);
        assert forall k :: 1 <= k < |page| ==> page[1..][k - 1] == page[k];
        if rest.None? then None else Some([ToJson(page[0], cat)] + rest.value)
  }

  /** The term the lookup searches for: the POST field `term`, or "". */
  function LookupTerm(req: Request): string {
    if "term" in req.post then req.post["term"] else ""
  }

  /** The filter "the name contains `term`, ignoring case". */
  function NameContains(term: string): Item -> bool {
    (it: Item) => IContains(it.name, term)
  }

  /** The items a lookup for `term` would list, before the limit: the
      matching items in name order. */
  function LookupMatches(db: Db, term: string): (r: seq<Item>)
    ensures SortedByName(r)
    ensures forall it :: it in r <==> it in db.items && IContains(it.name, term)
    ensures IsSubsequence(r, ItemsByName(db.items))
  {
    var listing := ItemsByName(db.items);
    SameItems(listing, db.items);
    FilterKeepsSortedByName(listing, NameContains(term));
    Filter(listing, NameContains(term))
  }

  /** The first `LookupLimit` elements of a name-sorted list: still
      sorted, all taken from the list, the whole list when shorter, and
      anything left out sorts no earlier than the last one taken. */
  lemma TakeSortedByName(s: seq<Item>)
    requires SortedByName(s)
    ensures SortedByName(Take(s, LookupLimit))
    ensures forall k :: 0 <= k < |Take(s, LookupLimit)| ==> Take(s, LookupLimit)[k] in s
    ensures |Take(s, LookupLimit)| < LookupLimit ==> Take(s, LookupLimit) == s
    ensures forall it :: it in s && it !in Take(s, LookupLimit) ==>
      |Take(s, LookupLimit)| == LookupLimit && NameLe(Take(s, LookupLimit)[LookupLimit - 1].name, it.name)
  {
    var r := Take(s, LookupLimit);
    assert forall k :: 0 <= k < |r| ==> r[k] == s[k];
    forall it | it in s && it !in r
      ensures |r| == LookupLimit && NameLe(r[LookupLimit - 1].name, it.name)
    {
      var j :| 0 <= j < |s| && s[j] == it;
      SortedByNamePairwise(s, LookupLimit - 1, j);
    }
  }

  /** The page a lookup for `term` lists (`items[:10]`): the first ten
      matches in name order; when fewer than ten come back, they are all
      the matches. */
  function LookupPage(db: Db, term: string): (r: seq<Item>)
    ensures r <= LookupMatches(db, term)
    ensures |r| <= LookupLimit
    ensures SortedByName(r)
    ensures forall k :: 0 <= k < |r| ==> r[k] in db.items && IContains(r[k].name, term)
    ensures |r| < LookupLimit ==> forall it :: it in db.items && IContains(it.name, term) ==> it in r
    ensures forall it :: it in db.items && IContains(it.name, term) && it !in r ==>
      |r| == LookupLimit && NameLe(r[|r| - 1].name, it.name)
  {
    var matches := LookupMatches(db, term);
    TakeSortedByName(matches);
    Take(matches, LookupLimit)
  }

  /** Every item of a page that renders appears in its JSON, by id. */
  lemma JsonCoversPage(page: seq<Item>, cats: seq<Category>)
    requires ItemsToJson(page, cats).Some?
    ensures forall it :: it in page ==>
      exists k :: 0 <= k < |ItemsToJson(page, cats).value| && ItemsToJson(page, cats).value[k].id == it.id
  {
    var json := ItemsToJson(page, cats).value;
    forall it | it in page
      ensures exists k :: 0 <= k < |json| && json[k].id == it.id
    {
      var k :| 0 <= k < |page| && page[k] == it;
      assert json[k].id == it.id;
    }
  }

  /** Each JSON entry of a page of stored matching items is `to_json()` of
      a stored item whose name contains the term, with that item's own
      category. */
  lemma JsonOfPage(page: seq<Item>, db: Db, term: string)
    requires ItemsToJson(page, db.categories).Some?
    requires forall k :: 0 <= k < |page| ==> page[k] in db.items && IContains(page[k].name, term)
    ensures forall k :: 0 <= k < |page| ==>
      exists it, c :: it in db.items && c in db.categories && c.id == it.category
        && IContains(it.name, term) && ItemsToJson(page, db.categories).value[k] == ToJson(it, c)
  {
    var json := ItemsToJson(page, db.categories).value;
    forall k | 0 <= k < |page|
      ensures exists it, c ::
        it in db.items && c in db.categories && c.id == it.category
        && IContains(it.name, term) && json[k] == ToJson(it, c)
    {
      var c := FindCategory(db.categories, page[k].category).value;
      assert json[k] == ToJson(page[k], c);
    }
  }

  /** The JSON reply of a lookup for `term`: `to_json()` of every item
      of the page, in order, each with its own category, or `None` when a
      page item's category cannot be loaded. */
  function LookupReply(db: Db, term: string): (r: Option<seq<ItemJson>>)
    ensures r.None? <==> exists k :: 0 <= k < |LookupPage(db, term)| && LookupPage(db, term)[k].category !in CategoryIds(db.categories)
    ensures r.Some? ==>
      var page := LookupPage(db, term);
      |r.value| == |page|
      && forall k :: 0 <= k < |page| ==>
        FindCategory(db.categories, page[k].category).Some?
        && r.value[k] == ToJson(page[k], FindCategory(db.categories, page[k].category).value)
  {
    ItemsToJson(LookupPage(db, term), db.categories)
  }

  /** Each entry of a lookup's JSON reply is `to_json()` of a stored item
      whose name contains the term, with that item's own category. */
  lemma LookupReplyMatches(db: Db, term: string, json: seq<ItemJson>)
    requires LookupReply(db, term) == Some(json)
    ensures forall k :: 0 <= k < |json| ==>
      exists it, c :: it in db.items && c in db.categories && c.id == it.category
        && IContains(it.name, term) && json[k] == ToJson(it, c)
  {
    JsonOfPage(LookupPage(db, term), db, term);
  }

  /** A lookup's JSON reply has at most ten entries, each naming a stored
      item that matches, in name order. */
  lemma LookupReplyOrdered(db: Db, term: string, json: seq<ItemJson>)
    requires LookupReply(db, term) == Some(json)
    ensures |json| <= LookupLimit
    ensures forall k :: 0 <= k < |json| ==> IContains(json[k].text, term) && json[k].id in ItemIds(db.items)
    ensures forall k :: 0 <= k < |json| - 1 ==> NameLe(json[k].text, json[k + 1].text)
  {
    var page := LookupPage(db, term);
    assert forall k :: 0 <= k < |page| ==> page[k] in db.items;
  }

  /** Every match is in a lookup's JSON reply, unless the reply is full
      and the match sorts no earlier than its last entry. */
  lemma LookupReplyComplete(db: Db, term: string, json: seq<ItemJson>)
    requires LookupReply(db, term) == Some(json)
    ensures |json| < LookupLimit ==>
      forall it :: it in db.items && IContains(it.name, term) ==>
        exists k :: 0 <= k < |json| && json[k].id == it.id
    ensures forall it :: it in db.items && IContains(it.name, term) ==>
      (exists k :: 0 <= k < |json| && json[k].id == it.id)
      || (|json| == LookupLimit && NameLe(json[|json| - 1].text, it.name))
  {
    JsonCoversPage(LookupPage(db, term), db.categories);
  }

  /** `get_items_ajax_view`. Only POST is allowed and only for a logged-in
      user; a request that is not an AJAX request gets a 400 error.
      Otherwise the reply is the lookup's JSON for the POSTed term, or a
      500 error when it cannot be built. */
  function ItemsLookup(db: Db, req: Request): (r: Response)
    ensures req.httpMethod != "POST" ==> r == MethodNotAllowed
    ensures req.httpMethod == "POST" && !req.authenticated ==> r == RedirectToLogin
    ensures req.httpMethod == "POST" && req.authenticated && !IsAjax(req) ==> r == JsonError(400, "Not an AJAX request")
    ensures r.JsonItems? ==> req.httpMethod == "POST" && req.authenticated && IsAjax(req)
    ensures r.JsonItems? ==> LookupReply(db, LookupTerm(req)) == Some(r.items)
    ensures r.JsonError? ==> r.status == 400 || r.status == 500
    ensures r.JsonError? && r.status == 500 ==> LookupReply(db, LookupTerm(req)).None?
    ensures req.httpMethod == "POST" && req.authenticated && IsAjax(req) ==>
      (r.JsonItems? <==> LookupReply(db, LookupTerm(req)).Some?)
  {
    if req.httpMethod != "POST" then MethodNotAllowed
    else if !req.authenticated then RedirectToLogin
    else if !IsAjax(req) then JsonError(400, "Not an AJAX request")
    else
      match LookupReply(db, LookupTerm(req))
      case None => JsonError(500, "Category matching query does not exist.")
      case Some(json) => JsonItems(json)
  }

  /** What a successful lookup replies: `to_json()` of stored items whose
      names contain the term, each with its own category, at most ten, in
      name order; every match not listed sorts no earlier than the last
      entry, which only happens when ten are listed. */
  lemma ItemsLookupReply(db: Db, req: Request)
    ensures var r := ItemsLookup(db, req);
      r.JsonItems? ==> forall k :: 0 <= k < |r.items| ==>
        exists it, c :: it in db.items && c in db.categories && c.id == it.category
          && IContains(it.name, LookupTerm(req)) && r.items[k] == ToJson(it, c)
    ensures var r := ItemsLookup(db, req);
      r.JsonItems? ==>
        && |r.items| <= LookupLimit
        && (forall k :: 0 <= k < |r.items| ==> IContains(r.items[k].text, LookupTerm(req)) && r.items[k].id in ItemIds(db.items))
        && (forall k :: 0 <= k < |r.items| - 1 ==> NameLe(r.items[k].text, r.items[k + 1].text))
    ensures var r := ItemsLookup(db, req);
      r.JsonItems? ==> forall it :: it in db.items && IContains(it.name, LookupTerm(req)) ==>
        (exists k :: 0 <= k < |r.items| && r.items[k].id == it.id)
        || (|r.items| == LookupLimit && NameLe(r.items[|r.items| - 1].text, it.name))
  {
    var r := ItemsLookup(db, req);
    if r.JsonItems? {
      LookupReplyMatches(db, LookupTerm(req), r.items);
      LookupReplyOrdered(db, LookupTerm(req), r.items);
      LookupReplyComplete(db, LookupTerm(req), r.items);
    }
  }

  /** On a consistent database an allowed AJAX lookup always succeeds: the
      500 reply needs an item whose category is gone. */
  lemma LookupSucceeds(db: Db, req: Request)
    requires Valid(db)
    requires req.httpMethod == "POST" && req.authenticated && IsAjax(req)
    ensures ItemsLookup(db, req).JsonItems?
  {
    var page := LookupPage(db, LookupTerm(req));
    assert forall k :: 0 <= k < |page| ==> page[k].category in CategoryIds(db.categories) by {
      assert ItemRefsValid(db.items, db.categories, db.vendors);
    }
  }

  // ---- Permissions ----

  /** The requesting user, as the permission checks see it: the superuser
      flag and the role `get_role()` reports (absent when unset). */
  datatype Actor = Actor(isSuperuser: bool, role: Option<UserRole>)

  /** The role is one of the given role codes, compared as stored. */
  predicate RoleIn(a: Actor, codes: seq<string>) {
    a.role.Some? && RoleCode(a.role.value) in codes
  }

  /** `ProductCreateView.test_func`: the role is ADMIN or EXECUTIVE. */
  function CanCreateProduct(a: Actor): (ok: bool)
    ensures ok <==> a.role == Some(Admin) || a.role == Some(Executive)
  {
    RoleIn(a, [RoleCode(Admin), RoleCode(Executive)])
  }

  /** `ProductDeleteView.test_func`: the role is ADMIN or EXECUTIVE. */
  function CanDeleteProduct(a: Actor): (ok: bool)
    ensures ok <==> a.role == Some(Admin) || a.role == Some(Executive)
  {
    RoleIn(a, [RoleCode(Admin), RoleCode(Executive)])
  }

  /** `ProductUpdateView.test_func`: only superusers. */
  function CanUpdateProduct(a: Actor): (ok: bool)
    ensures ok <==> a.isSuperuser
  {
    a.isSuperuser
  }

  /** `DeliveryDeleteView.test_func`: only superusers. */
  function CanDeleteDelivery(a: Actor): (ok: bool)
    ensures ok <==> a.isSuperuser
  {
    if a.isSuperuser then true else false
  }

  /** Creating and deleting products need a role and ignore the superuser
      flag; updating products and deleting deliveries need the superuser
      flag and ignore the role. So an operative superuser may update but
      not create, and an admin who is not a superuser may create but not
      update. */
  lemma PermissionsAreIndependent(a: Actor)
    ensures CanCreateProduct(a) == CanCreateProduct(a.(isSuperuser := !a.isSuperuser))
    ensures CanUpdateProduct(a) == CanUpdateProduct(a.(role := None))
    ensures CanCreateProduct(Actor(false, Some(Admin))) && !CanUpdateProduct(Actor(false, Some(Admin)))
    ensures CanUpdateProduct(Actor(true, Some(Operative))) && !CanCreateProduct(Actor(true, Some(Operative)))
  {
  }
}

=== FILE: text.dfy ===
/** The parts of Python's `str` the system relies on: whitespace, `strip()`,
    `split()` with no separator, case-insensitive containment (Django's
    `icontains` lookup) and decimal rendering of integers in f-strings. */
module Text {

  /** The characters Python's `str.isspace()` accepts: ASCII whitespace
      (U+0009..U+000D, space), the information separators U+001C..U+001F,
      and the Unicode space separators and line/paragraph separators. */
  const SpaceChars: set<char> := {
    '\U{9}', '\U{A}', '\U{B}', '\U{C}', '\U{D}',
    '\U{1C}', '\U{1D}', '\U{1E}', '\U{1F}', ' ',
    '\U{85}', '\U{A0}', '\U{1680}',
    '\U{2000}', '\U{2001}', '\U{2002}', '\U{2003}', '\U{2004}', '\U{2005}',
    '\U{2006}', '\U{2007}', '\U{2008}', '\U{2009}', '\U{200A}',
    '\U{2028}', '\U{2029}', '\U{202F}', '\U{205F}', '\U{3000}'
  }

  /** Python's `str.isspace()` for one character. */
  predicate IsSpace(c: char) {
    c in SpaceChars
  }

  /** Every character of `s` is whitespace (vacuously true of ""). */
  predicate AllSpace(s: string) {
    forall k :: 0 <= k < |s| ==> IsSpace(s[k])
  }

  /** No character of `s` is whitespace. */
  predicate NoSpace(s: string) {
    forall k :: 0 <= k < |s| ==> !IsSpace(s[k])
  }

  /** `s` neither starts nor ends with whitespace: what `strip()` returns. */
  predicate Trimmed(s: string) {
    s == [] || (!IsSpace(s[0]) && !IsSpace(s[|s| - 1]))
  }

  /** The characters of `s` at positions `lo` up to `hi` are all
      whitespace. */
  ghost predicate SpaceBetween(s: string, lo: int, hi: int) {
    forall k :: lo <= k < hi && 0 <= k < |s| ==> IsSpace(s[k])
  }

  /** `r` is `s` with an all-whitespace prefix and an all-whitespace
      suffix cut off. */
  ghost predicate StrippedFrom(r: string, s: string) {
    exists i, j :: 0 <= i <= j <= |s| && r == s[i..j] && SpaceBetween(s, 0, i) && SpaceBetween(s, j, |s|)
  }

  /** A string is all whitespace exactly when its first character is and
      the rest is. */
  lemma AllSpaceCons(s: string)
    requires s != []
    ensures AllSpace(s) <==> IsSpace(s[0]) && AllSpace(s[1..])
  {
    assert forall k :: 1 <= k < |s| ==> s[1..][k - 1] == s[k];
  }

  /** Python's `s.lstrip()`: drops the longest all-whitespace prefix. */
  function StripLeading(s: string): (r: string)
    ensures |r| <= |s| && r == s[|s| - |r|..]
    ensures AllSpace(s[..|s| - |r|])
    ensures r == [] || !IsSpace(r[0])
  {
    if |s| > 0 && IsSpace(s[0]) then
      var r := StripLeading(s[1..]);
      var dropped := s[..|s| - |r|];
      assert dropped[1..] == s[1..][..|s| - 1 - |r|];
      AllSpaceCons(dropped);
      r
    else
      s
  }

  /** Python's `s.rstrip()`: drops the longest all-whitespace suffix. */
  function StripTrailing(s: string): (r: string)
    ensures |r| <= |s| && r == s[..|r|]
    ensures AllSpace(s[|r|..])
    ensures r == [] || !IsSpace(r[|r| - 1])
  {
    if |s| > 0 && IsSpace(s[|s| - 1]) then StripTrailing(s[..|s| - 1]) else s
  }

  /** Python's `s.strip()`: `s` without its leading and trailing
      whitespace. */
  function Strip(s: string): (r: string)
    ensures Trimmed(r)
    ensures StrippedFrom(r, s)
    ensures r == [] <==> AllSpace(s)
    ensures |r| <= |s|
  {
    var t := StripLeading(s);
    var r := StripTrailing(t);
    StrippedFromParts(s, t, r);
    r
  }

  /** Cutting the whole whitespace prefix off `s`, giving `t`, and then
      the whole whitespace suffix off `t`, giving `r`, strips `r` from `s`
      and leaves it trimmed; nothing is left exactly when `s` is all
      whitespace. */
  lemma StrippedFromParts(s: string, t: string, r: string)
    requires |t| <= |s| && t == s[|s| - |t|..] && AllSpace(s[..|s| - |t|])
    requires t == [] || !IsSpace(t[0])
    requires |r| <= |t| && r == t[..|r|] && AllSpace(t[|r|..])
    requires r == [] || !IsSpace(r[|r| - 1])
    ensures Trimmed(r)
    ensures StrippedFrom(r, s)
    ensures r == [] <==> AllSpace(s)
  {
    assert r != [] ==> r[0] == t[0];
    assert t == [] ==> AllSpace(s) by {
      if t == [] {
        assert s[..|s|] == s;
      }
    }
    var i := |s| - |t|;
    assert r == s[i..i + |r|];
    assert s[i + |r|..] == t[|r|..];
    assert SpaceBetween(s, 0, i) by {
      assert forall k :: 0 <= k < i ==> s[..i][k] == s[k];
    }
    assert SpaceBetween(s, i + |r|, |s|) by {
      assert forall k :: i + |r| <= k < |s| ==> t[|r|..][k - i - |r|] == s[k];
    }
  }

  /** The ends of a non-empty slice are the characters at its bounds. */
  lemma SliceEnds(s: string, x: string, i: int, j: int)
    requires 0 <= i <= j <= |s| && x == s[i..j] && x != []
    ensures i < j && s[i] == x[0] && s[j - 1] == x[|x| - 1]
  {
  }

  /** Cutting whitespace off both ends of `s` leaves at most one trimmed
      string. */
  lemma StrippedFromUnique(s: string, x: string, y: string)
    requires Trimmed(x) && StrippedFrom(x, s)
    requires Trimmed(y) && StrippedFrom(y, s)
    ensures x == y
  {
    var i, j :| 0 <= i <= j <= |s| && x == s[i..j] && SpaceBetween(s, 0, i) && SpaceBetween(s, j, |s|);
    var i2, j2 :| 0 <= i2 <= j2 <= |s| && y == s[i2..j2] && SpaceBetween(s, 0, i2) && SpaceBetween(s, j2, |s|);
    if x != [] {
      SliceEnds(s, x, i, j);
    }
    if y != [] {
      SliceEnds(s, y, i2, j2);
    }
    if x != [] && y != [] {
      assert i == i2 && j == j2;
    }
  }

  /** `strip()` is the only trimmed string that `s` becomes by cutting
      off whitespace at both ends. */
  lemma StripUnique(s: string, x: string)
    requires Trimmed(x) && StrippedFrom(x, s)
    ensures x == Strip(s)
  {
    StrippedFromUnique(s, x, Strip(s));
  }

  /** A string that is already trimmed is returned unchanged by `strip()`. */
  lemma StripTrimmed(s: string)
    requires Trimmed(s)
    ensures Strip(s) == s
  {
  }

  /** `strip()` is idempotent. */
  lemma StripIdempotent(s: string)
    ensures Strip(Strip(s)) == Strip(s)
  {
    StripTrimmed(Strip(s));
  }

  /** Leading whitespace never survives `lstrip()`, whatever follows it. */
  lemma {:induction false} StripLeadingAppend(a: string, b: string)
    ensures AllSpace(a) ==> StripLeading(a + b) == StripLeading(b)
    ensures !AllSpace(a) ==> StripLeading(a + b) == StripLeading(a) + b
  {
    if a != [] {
      assert (a + b)[0] == a[0];
      assert (a + b)[1..] == a[1..] + b;
      AllSpaceCons(a);
      if IsSpace(a[0]) {
        StripLeadingAppend(a[1..], b);
      }
    } else {
      assert a + b == b;
    }
  }

  /** Appending whitespace does not change what `rstrip()` keeps. */
  lemma {:induction false} StripTrailingAppendSpace(a: string, w: string)
    requires AllSpace(w)
    ensures StripTrailing(a + w) == StripTrailing(a)
    decreases |w|
  {
    if w != [] {
      var aw := a + w;
      assert aw[..|aw| - 1] == a + w[..|w| - 1];
      assert IsSpace(aw[|aw| - 1]);
      StripTrailingAppendSpace(a, w[..|w| - 1]);
    } else {
      assert a + w == a;
    }
  }

  /** Appending whitespace does not change what `strip()` returns. */
  lemma StripAppendSpace(a: string, w: string)
    requires AllSpace(w)
    ensures Strip(a + w) == Strip(a)
  {
    StripLeadingAppend(a, w);
    if AllSpace(a) {
      assert AllSpace(a + w);
    } else {
      StripTrailingAppendSpace(StripLeading(a), w);
    }
  }

  /** A non-empty run of non-whitespace characters. */
  predicate IsWord(w: string) {
    |w| > 0 && NoSpace(w)
  }

  /** Where the run of whitespace starting at position `pos` ends: the
      first position from `pos` on that holds no whitespace, or the end. */
  function SpaceRunEnd(s: string, pos: nat): (e: nat)
    requires pos <= |s|
    ensures pos <= e <= |s|
    ensures forall k :: pos <= k < e ==> IsSpace(s[k])
    ensures e == |s| || !IsSpace(s[e])
    decreases |s| - pos
  {
    if pos < |s| && IsSpace(s[pos]) then SpaceRunEnd(s, pos + 1) else pos
  }

  /** Where the run of non-whitespace starting at position `pos` ends. */
  function WordEnd(s: string, pos: nat): (e: nat)
    requires pos <= |s|
    ensures pos <= e <= |s|
    ensures forall k :: pos <= k < e ==> !IsSpace(s[k])
    ensures e == |s| || IsSpace(s[e])
    decreases |s| - pos
  {
    if pos < |s| && !IsSpace(s[pos]) then WordEnd(s, pos + 1) else pos
  }

  /** From position `pos` on, `s` holds exactly the words `ws`, in order,
      each a maximal run of non-whitespace: after the whitespace comes the
      first word, which ends at the end of `s` or at whitespace, and the
      rest of `s` holds the remaining words; with no words left, only
      whitespace remains. */
  ghost predicate SplitsFrom(s: string, pos: nat, ws: seq<string>)
    requires pos <= |s|
    decreases |ws|
  {
    var i := SpaceRunEnd(s, pos);
    if ws == [] then i == |s|
    else
      var e := i + |ws[0]|;
      && e <= |s|
      && IsWord(ws[0])
      && s[i..e] == ws[0]
      && (e == |s| || IsSpace(s[e]))
      && SplitsFrom(s, e, ws[1..])
  }

  /** The scan behind `split()`: skip whitespace, take the run up to the
      next whitespace as a word, repeat from there. */
  function WordsFrom(s: string, pos: nat): (r: seq<string>)
    requires pos <= |s|
    ensures SplitsFrom(s, pos, r)
    decreases |s| - pos
  {
    var i := SpaceRunEnd(s, pos);
    if i == |s| then
      []
    else
      var e := WordEnd(s, i);
      var w := s[i..e];
      assert IsWord(w) by {
        assert forall k :: 0 <= k < |w| ==> w[k] == s[i + k];
      }
      var rest := WordsFrom(s, e);
      assert ([w] + rest)[0] == w && ([w] + rest)[1..] == rest;
      [w] + rest
  }

  /** Every element of a list that fits `SplitsFrom` is a word. */
  lemma {:induction false} SplitsFromWords(s: string, pos: nat, ws: seq<string>)
    requires pos <= |s| && SplitsFrom(s, pos, ws)
    ensures forall k :: 0 <= k < |ws| ==> IsWord(ws[k])
    decreases |ws|
  {
    if ws != [] {
      var e := SpaceRunEnd(s, pos) + |ws[0]|;
      SplitsFromWords(s, e, ws[1..]);
      assert forall k :: 1 <= k < |ws| ==> ws[k] == ws[1..][k - 1];
    }
  }

  /** Python's `s.split()` with no separator: the maximal runs of
      non-whitespace characters, in order. */
  function Split(s: string): (r: seq<string>)
    ensures SplitsFrom(s, 0, r)
    ensures forall k :: 0 <= k < |r| ==> IsWord(r[k])
    ensures r == [] <==> AllSpace(s)
  {
    var r := WordsFrom(s, 0);
    SplitsFromWords(s, 0, r);
    r
  }

  /** The character at offset `k` of a slice of `s` starting at `i`. */
  lemma SliceAt(s: string, x: string, i: int, k: int)
    requires 0 <= i && i + |x| <= |s| && s[i..i + |x|] == x && 0 <= k < |x|
    ensures s[i + k] == x[k]
  {
  }

  /** Two words that start at the same place and each end at the end or
      at whitespace are the same word. */
  lemma FirstWordUnique(s: string, i: int, u: string, v: string)
    requires 0 <= i && i + |u| <= |s| && s[i..i + |u|] == u && IsWord(u)
    requires i + |u| == |s| || IsSpace(s[i + |u|])
    requires i + |v| <= |s| && s[i..i + |v|] == v && IsWord(v)
    requires i + |v| == |s| || IsSpace(s[i + |v|])
    ensures u == v
  {
    if |u| < |v| {
      SliceAt(s, v, i, |u|);
    } else if |v| < |u| {
      SliceAt(s, u, i, |v|);
    }
  }

  /** When only whitespace follows `p`, no word does. */
  lemma SplitsFromNone(s: string, p: nat, ws: seq<string>)
    requires p <= |s|
    requires SplitsFrom(s, p, []) && SplitsFrom(s, p, ws)
    ensures ws == []
  {
  }

  /** Two lists of words that both fit from `p` start with the same word,
      and their remainders both fit from where that word ends. */
  lemma SplitsFromFirst(s: string, p: nat, a: seq<string>, b: seq<string>)
    requires p <= |s| && a != [] && b != []
    requires SplitsFrom(s, p, a) && SplitsFrom(s, p, b)
    ensures a[0] == b[0]
    ensures SpaceRunEnd(s, p) + |a[0]| <= |s|
    ensures SplitsFrom(s, SpaceRunEnd(s, p) + |a[0]|, a[1..])
    ensures SplitsFrom(s, SpaceRunEnd(s, p) + |a[0]|, b[1..])
  {
    FirstWordUnique(s, SpaceRunEnd(s, p), a[0], b[0]);
  }

  /** The words from a position on are determined by the string: no two
      lists of words both fit. */
  lemma {:induction false} SplitsFromUnique(s: string, p: nat, a: seq<string>, b: seq<string>)
    requires p <= |s|
    requires SplitsFrom(s, p, a) && SplitsFrom(s, p, b)
    ensures a == b
    decreases |a|
  {
    if a != [] && b != [] {
      SplitsFromFirst(s, p, a, b);
      SplitsFromUnique(s, SpaceRunEnd(s, p) + |a[0]|, a[1..], b[1..]);
      assert a == [a[0]] + a[1..] && b == [b[0]] + b[1..];
    } else if a == [] {
      SplitsFromNone(s, p, b);
    } else {
      SplitsFromNone(s, p, a);
    }
  }

  /** Whatever list of maximal runs fits `s` is what `split()` returns. */
  lemma SplitUnique(s: string, ws: seq<string>)
    requires SplitsFrom(s, 0, ws)
    ensures ws == Split(s)
  {
    SplitsFromUnique(s, 0, ws, Split(s));
  }

  /** A non-empty string without whitespace splits into itself alone. */
  lemma SplitSingleWord(s: string)
    requires |s| > 0 && NoSpace(s)
    ensures Split(s) == [s]
  {
    assert s[0..|s|] == s;
    assert SplitsFrom(s, |s|, []);
    assert SplitsFrom(s, 0, [s]);
    SplitUnique(s, [s]);
  }

  /** Lower-cases one ASCII letter; every other character is left alone. */
  function LowerChar(c: char): (r: char)
    ensures 'A' <= c <= 'Z' ==> 'a' <= r <= 'z'
  {
    if 'A' <= c <= 'Z' then (c as int + 32) as char else c
  }

  /** Lower-cases every character of `s` (ASCII case folding). */
  function Lower(s: string): (r: string)
    ensures |r| == |s|
    ensures forall k :: 0 <= k < |s| ==> r[k] == LowerChar(s[k])
  {
    seq(|s|, k requires 0 <= k < |s| => LowerChar(s[k]))
  }

  /** `needle` occurs in `hay` starting at position `i`. */
  ghost predicate OccursAt(hay: string, needle: string, i: int) {
    0 <= i && i + |needle| <= |hay| && hay[i..i + |needle|] == needle
  }

  /** Python's `needle in hay`. */
  function Contains(hay: string, needle: string): (b: bool)
    ensures b <==> exists i :: OccursAt(hay, needle, i)
  {
    if needle <= hay then
      assert OccursAt(hay, needle, 0);
      true
    else if hay == [] then
      false
    else
      var b := Contains(hay[1..], needle);
      assert forall i :: OccursAt(hay[1..], needle, i) ==> OccursAt(hay, needle, i + 1) by {
        forall i | OccursAt(hay[1..], needle, i)
          ensures OccursAt(hay, needle, i + 1)
        {
          assert hay[1..][i..i + |needle|] == hay[i + 1..i + 1 + |needle|];
        }
      }
      assert forall i :: OccursAt(hay, needle, i) && i > 0 ==> OccursAt(hay[1..], needle, i - 1) by {
        forall i | OccursAt(hay, needle, i) && i > 0
          ensures OccursAt(hay[1..], needle, i - 1)
        {
          assert hay[1..][i - 1..i - 1 + |needle|] == hay[i..i + |needle|];
        }
      }
      assert !OccursAt(hay, needle, 0);
      b
  }

  /** Django's `name__icontains=term` lookup: containment after folding
      both sides to lower case. */
  function IContains(hay: string, needle: string): (b: bool)
    ensures b <==> exists i :: OccursAt(Lower(hay), Lower(needle), i)
    ensures needle == [] ==> b
  {
    assert Lower(needle) == [] ==> OccursAt(Lower(hay), Lower(needle), 0);
    Contains(Lower(hay), Lower(needle))
  }

  /** The decimal digit character for `d`. */
  function DigitChar(d: nat): (c: char)
    requires d < 10
    ensures '0' <= c <= '9'
  {
    ('0' as int + d) as char
  }

  /** The value of a decimal digit character. */
  function DigitValue(c: char): (d: nat)
    requires '0' <= c <= '9'
    ensures d < 10 && DigitChar(d) == c
  {
    c as int - '0' as int
  }

  /** A non-empty string of decimal digits. */
  predicate IsDigits(s: string) {
    |s| > 0 && forall k :: 0 <= k < |s| ==> '0' <= s[k] <= '9'
  }

  /** The decimal rendering of a natural number, without leading zeros. */
  function NatToString(n: nat): (r: string)
    ensures IsDigits(r)
    ensures r[0] == '0' ==> n == 0
  {
    if n < 10 then [DigitChar(n)] else NatToString(n / 10) + [DigitChar(n % 10)]
  }

  /** Reads a string of decimal digits back into a number. */
  function ParseNat(s: string): nat
    requires forall k :: 0 <= k < |s| ==> '0' <= s[k] <= '9'
  {
    if s == [] then 0 else ParseNat(s[..|s| - 1]) * 10 + DigitValue(s[|s| - 1])
  }

  /** Python's `str(i)` / `f"{i}"` for an integer: a minus sign, then the
      digits of the magnitude. */
  function IntToString(i: int): (r: string)
    ensures |r| > 0
    ensures r[0] == '-' <==> i < 0
    ensures i >= 0 ==> IsDigits(r)
    ensures i < 0 ==> IsDigits(r[1..])
  {
    if i < 0 then "-" + NatToString(-i) else NatToString(i)
  }

  /** Reads back the rendering produced by `IntToString`. */
  function ParseInt(s: string): int
    requires |s| > 0
    requires if s[0] == '-' then IsDigits(s[1..]) else IsDigits(s)
  {
    if s[0] == '-' then -(ParseNat(s[1..]) as int) else ParseNat(s)
  }

  /** Reading back a rendered natural number gives the number. */
  lemma {:induction false} ParseNatToString(n: nat)
    ensures ParseNat(NatToString(n)) == n
  {
    if n >= 10 {
      var r := NatToString(n);
      assert r[..|r| - 1] == NatToString(n / 10);
      ParseNatToString(n / 10);
    }
  }

  /** Reading back a rendered integer gives the integer. */
  lemma ParseIntToString(i: int)
    ensures ParseInt(IntToString(i)) == i
  {
    if i < 0 {
      assert IntToString(i)[1..] == NatToString(-i);
      ParseNatToString(-i);
    } else {
      ParseNatToString(i);
    }
  }

  /** Different integers render differently. */
  lemma IntToStringInjective(i: int, j: int)
    requires IntToString(i) == IntToString(j)
    ensures i == j
  {
    ParseIntToString(i);
    ParseIntToString(j);
  }
}

=== FILE: wrappers.dfy ===
/** Option and Result, the two shapes the model uses for Python's `None`
    and for operations that raise. */
module Wrappers {

  /** A value that may be absent: Python's `None` or a nullable column. */
  datatype Option<+T> = None | Some(value: T) {

    /** The wrapped value, or `default` when absent (Python's `x or default`
        for values whose only falsy form is `None`). */
    function GetOr(default: T): T {
      match this
      case Some(v) => v
      case None => default
    }
  }

  /** The outcome of an operation that either produces a value or raises. */
  datatype Result<+R, +E> = Success(value: R) | Failure(error: E)
}
